=== FILE: README.md ===
# social_verse core, modelled in Dafny

A model of the logic inside the social_verse travel network's Django/DRF back end. It has three parts.

- **The outbound country-data client.** `ServiceRequest._make_request` sorts every upstream response into exactly one outcome:
  - the response is returned;
  - `ClientNotFoundError`;
  - `HubServerError`;
  - the HTTP error of `raise_for_status`;
  - the `AttributeError` of calling `.get` on a JSON body that is not an object.

  `CountryLayerService` adds the API key to the query parameters, asks for `name/<country>`, rejects an empty payload, and validates the payload with `CountryLayerListSerializer`.
- **`BaseService`.** The generic CRUD layer, seen as a map from primary key to row. It covers create, get_all, get_by_id, update, delete and filter, plus `get_object_or_404`.
- **The domain rules on top of it:**
  - registration and post-body validation;
  - the `UserManager` permission-flag and email rules;
  - login;
  - user/country/tag subscriptions;
  - the authenticated and anonymous main-page feeds;
  - the three dashboard rankings;
  - grouping a user's posts by country;
  - per-user post and country counts;
  - countries with posts;
  - retrieving a country together with its remote data.

Everything is a pure function over immutable values. Python's dynamic values are the `Json` datatype, with Python's truthiness and `dict.get`. DRF errors are the `Failure` datatype. The network, password hashing, password checking and token issuing are function parameters:
- `send: Request -> Transport`;
- `hash: string -> string`;
- `checkPassword`;
- `tokensFor`.

The configured base URL and API key are a `Config` value, fixed across calls.

Modules follow the source layout:

| module | file |
|---|---|
| `RequestService` and `Failures` | request_service.py and exceptions.py |
| `CountryLayer` | country_layer.py |
| `CountrySchema` | the country serializers |
| `BaseService` | base/service.py |
| `Posts` and `Dashboard` | the post services |
| `PostSerializer`, `UserSerializers`, `UserManager`, `UserServices` and `CountryServices` | the files of the same names |

`Fields` models the DRF `CharField`/`ListField` behaviour those serializers rely on. `Seqs` holds the list operators that stand in for query-set `filter`, `distinct`, `order_by('-key')` and slicing.

Behaviour of the code worth knowing:
- **Country codes:** `alpha2Code` and `alpha3Code` are upper bounds (`max_length=2` and `3`), not exact lengths.
- **Single object:** a single JSON object sent instead of a list is not wrapped into a list. `CountryLayerListSerializer` rejects it as "not a list" (`FranceObjectIsRejected`).
- **Return value:** `get_country_by_name` returns the validated list of records, not one record.
- **`HubServerError` status:** it declares status 400, so an upstream 5xx reaches clients as 400.
- **4xx body that is JSON but not an object:** `.get` raises `AttributeError` rather than `ClientNotFoundError`.
- **2xx body that is not JSON:** `response.json()` raises the JSON decode error (`JsonDecodeError`).

## Model

| member | source | states |
|---|---|---|
| RequestService.Classify | services/request_service/request_service.py:40-57 | Exactly one outcome per response. A 4xx with a JSON object body gives ClientNotFoundError, whose detail is the body's `message` or None. A 4xx with a non-JSON body gives the HTTP error of raise_for_status. A 4xx with JSON that is not an object gives AttributeError. A 5xx always gives HubServerError. Any other status returns the response unchanged. |
| RequestService.MakeRequest | services/request_service/request_service.py:33-57 | The transport is called once, with the request whose URL is urljoin(base, endpoint). A transport exception propagates unchanged. A delivered response is classified. |
| RequestService.JoinOntoDirectory | services/request_service/request_service.py:34 | For a lower-case `http`/`https` base URL ending in '/', without params, query, fragment or bracketed host, and a relative endpoint without `;`, `?` or `#`, where neither path has an empty, `.` or `..` segment, urljoin gives the base followed by the endpoint verbatim: no escaping and no change to the base. |
| RequestService.ClientErrorWithoutMessage | services/request_service/request_service.py:41-49 | A 4xx JSON object without `message` raises ClientNotFoundError(detail=None), which reports the default detail 'Неверный формат запроса!'. |
| RequestService.ServerErrorHidesUpstream | services/request_service/request_service.py:51-53 | A 5xx fails whatever the body, with HTTP status 400 and the fixed detail 'Ошибка сервиса ...!'. |
| Failures.StatusCode | services/request_service/exceptions.py:4-11 | Both integration errors and validation errors answer 400; only Http404 answers 404. |
| Failures.IntegrationDetail | services/request_service/exceptions.py:4-11 | HubServerError always reports its default detail. ClientNotFoundError reports the default when raised with None. Otherwise it reports its own detail converted as DRF stores it: a string unchanged, other scalars as their `str()` text, lists and objects element by element. |
| Failures.ErrorText | services/request_service/exceptions.py:4-6 | A detail stored by an APIException is always text or lists/objects of text. A scalar becomes its Python `str()` (None, True/False, decimal integers). Lists keep their length and objects their keys. |
| Failures.ErrorTextKeepsText | services/request_service/exceptions.py:4-6 | A detail that is already text is stored unchanged (the conversion is idempotent). |
| Failures.ScalarMessagesBecomeText | services/request_service/exceptions.py:4-6 | Worked example: an upstream `message` of 5 or true is reported as "5" or "True". |
| CountryLayer.WithAccessKey | services/country_layer/country_layer.py:18-22 | The query parameters always hold access_key = API key, overwriting a caller's value. Every other caller parameter is kept unchanged, and nothing else is added. |
| CountryLayer.LayerRequest | services/country_layer/country_layer.py:18-22 | The generic request is sent with access_key set to the API key. A transport exception propagates, and a delivered response goes through the status classification. |
| CountryLayer.CountryRequestShape | services/country_layer/country_layer.py:13-30 | The by-name request is a GET with header Content-Type: application/json, and its only parameter is the key. For a plain base URL (as for the join) and a name that forms no empty, `.` or `..` segment and holds no `;`, `?` or `#`, its URL is the base URL, then `name/`, then the unescaped name. |
| CountryLayer.GetCountryByName | services/country_layer/country_layer.py:25-36 | On success, the request was delivered with a status outside 4xx/5xx and a truthy payload. The result is exactly that payload's validated list, and every record meets the schema. |
| CountryLayer.RequestFailuresPropagate | services/country_layer/country_layer.py:30-31 | Transport and classification failures reach the caller unchanged: nothing is caught. A delivered response outside 4xx/5xx whose body is not JSON fails with the JSON decode error. |
| CountryLayer.EmptyPayloadIsNotFound | services/country_layer/country_layer.py:31-36 | An empty payload (null, [], {}, "", 0 or false) fails with "Страна не найдена." and yields no record. |
| CountryLayer.PayloadDecides | services/country_layer/country_layer.py:33-47 | A non-empty payload's result is exactly its validation under the `countries` list serializer, with the serializer errors on failure. |
| CountryLayer.ListIsReturned | services/country_layer/country_layer.py:43-45 | A 200 answer listing conforming records returns exactly those records. |
| CountryLayer.FranceListIsReturned | services/country_layer/country_layer.py:43-45 | Worked example: a one-element list with the French record returns that record. |
| CountryLayer.FranceObjectIsRejected | services/country_layer/serializers.py:21-22 | The same record sent as a bare object fails with a "not a list" error. |
| CountryLayer.NotFoundMessageIsReported | services/request_service/request_service.py:40-49 | Worked example: 404 with {"message": "Country not found"} fails with ClientNotFoundError carrying that message. |
| CountryLayer.UnavailableIsServerError | services/request_service/request_service.py:51-53 | Worked example: 503 with a non-JSON body fails with HubServerError. |
| JsonValues.FalsyIffEmpty | services/country_layer/country_layer.py:33 | `if country_data:` is false exactly for null, false, 0, "", [] and {}. |
| Fields.ValidateChar | services/country_layer/serializers.py:5 | CharField: a string is accepted iff it conforms (length bounds, blank rule, no NUL) and is kept unchanged. A missing key fails as required, and null fails as null. A value that is neither text nor an integer fails as invalid. A failure always carries a reason. |
| Fields.ValidateCharList | services/country_layer/serializers.py:6-8 | ListField(child=CharField): a non-list fails. A list passes iff every item passes, and the result is the items' validated values in order. |
| Fields.ValidateEach | services/country_layer/serializers.py:21-22 | Per-item validation succeeds iff every item does. It fails with the errors of exactly the failing indices. |
| CountrySchema.ValidateCountry | services/country_layer/serializers.py:4-18 | An accepted element meets the schema: name, capital and region at most 255; every topLevelDomain at most 10; alpha2Code at most 2; alpha3Code at most 3; every callingCode at most 5; every altSpelling at most 255; only capital may be blank. Null and non-objects are rejected. An object is accepted iff every declared field passes; otherwise its error is exactly the collected field errors. |
| CountrySchema.CollectErrors | services/country_layer/serializers.py:4-18 | An element's error list is empty iff every field passed. Each of the eight fields that fails appears under its own name with its own errors: the CharField reasons, or the ListField per-item reasons. Every entry names a schema field that failed. |
| CountrySchema.ValidateCountries | services/country_layer/serializers.py:21-22 | The payload must be a list. It is accepted iff every element is, and then yields the elements' records in order. Otherwise there is one error entry per element, clean exactly for the elements that passed, and at least one is not clean. A failing element's entry is exactly that element's own error. |
| CountrySchema.PerItem | services/country_layer/serializers.py:21-22 | The aggregated list errors have one entry per element: the element's own errors where it failed, and `{}` (Clean) exactly where it passed. |
| CountrySchema.EncodeThenValidate | services/country_layer/serializers.py:4-18 | Round trip: a record meeting the schema, sent as JSON, validates to itself. |
| CountrySchema.ValidRecordIffValidates | services/country_layer/serializers.py:4-18 | The schema predicate describes exactly the records validation can produce. |
| CountrySchema.EncodeListThenValidate | services/country_layer/serializers.py:21-22 | Round trip for lists: a list of conforming records validates to exactly that list. |
| CountrySchema.MissingAlpha2IsReported | services/country_layer/serializers.py:9 | An object without alpha2Code is rejected with a `required` error under that field. |
| CountrySchema.ExtraKeysIgnored | services/country_layer/serializers.py:4-18 | Keys outside the schema never change the validation result. |
| BaseService.Create | services/base/service.py:17-35 | A new row holding exactly the given fields, under a key not used before. Every other row is unchanged. |
| BaseService.GetById | services/base/service.py:46-63 | Returns the row iff the key exists, otherwise "<Model> does not exist.". |
| BaseService.Update | services/base/service.py:65-80 | An absent key fails with the get_by_id error, so no store changes. Otherwise the given attributes are set. The row's other attributes, all other rows and the key set are unchanged. |
| BaseService.Delete | services/base/service.py:82-94 | An absent key fails with the get_by_id error. Otherwise exactly that row is removed, with message "<Model> deleted successfully." and status 200. |
| BaseService.Filter | services/base/service.py:96-108 | Exactly the rows matching every parameter, unchanged. |
| BaseService.GetOr404 | apps/users/services/user.py:59-60 | get_object_or_404 returns the one matching key. It gives 404 iff no row matches. It fails with MultipleObjectsReturned only when two different rows match, so a single match always succeeds. |
| BaseService.CreateThenGet | services/base/service.py:17-35 | A created row is found under its key, and earlier rows are found as before. |
| BaseService.DeleteThenGet | services/base/service.py:82-94 | After a delete, the key reports "does not exist" and every other key reports as before. |
| BaseService.UpdateThenFilter | services/base/service.py:65-80 | An updated row matches a filter on the attributes it was given. |
| BaseService.FilterWithoutParameters | services/base/service.py:37-44 | A filter without parameters is get_all: every row. |
| Posts.AuthenticatedFeed | apps/posts/services/posts.py:36-51 | A post is in the feed iff its author, its country or one of its tags is subscribed. The feed has no duplicates and is newest first. |
| Posts.NoSubscriptionsNoFeed | apps/posts/services/posts.py:41-49 | A user with no subscriptions of any kind gets an empty feed. |
| Posts.Newest | apps/posts/services/posts.py:58 | At most k distinct posts, newest first. No post left out is newer than one kept, and all posts are kept when there are fewer than k. |
| Posts.AnonymousFeed | apps/posts/services/posts.py:53-58 | The ten newest posts: min(10, n) distinct posts, newest first. No post left out is newer than one kept, and every post is kept when there are fewer than ten. |
| Dashboard.LatestPosts | apps/posts/services/dashboard.py:10-12 | The three newest posts: min(3, n) distinct posts, newest first. No post left out is newer than one kept, and every post is kept when there are fewer than three. |
| Dashboard.TopUsers | apps/posts/services/dashboard.py:14-18 | min(5, n) users, no user twice, ordered by total likes, highest first. Each total is the user's real sum, and no user left out has more likes than one kept. |
| Dashboard.EveryUserAnnotated | apps/posts/services/dashboard.py:14-18 | The annotation holds every user with their total and nothing else. |
| Dashboard.TagCloud | apps/posts/services/dashboard.py:20-24 | Every tag appears, with its number of posts, in non-increasing order of that count, and nothing else appears. |
| Dashboard.EveryTagAnnotated | apps/posts/services/dashboard.py:20-24 | The annotation holds every tag with its count and nothing else. |
| UserSerializers.ValidateRegistration | apps/users/serializers.py:7-20 | Accepted iff every field passes and the two passwords are equal. An accepted password has at least 9 characters. The mismatch error "Пароли не совпадают." comes only after every field has passed. Otherwise the error is a non-empty field-error map. |
| UserSerializers.ShortPasswordRejected | apps/users/serializers.py:9-10 | A password of 1 to 8 characters is rejected under `password` with the min_length error. |
| UserSerializers.MismatchReported | apps/users/serializers.py:16-20 | With valid fields, registration fails iff the passwords differ, and then only with the mismatch message. |
| UserSerializers.ValidateOptionalChar | apps/users/models.py:51-56 | first_name / last_name may be absent or null. A string is accepted iff it obeys the CharField bounds, and is then kept as sent. |
| UserSerializers.AddToGroup | apps/users/serializers.py:78-84 | One loop step creates the group only for a new name, and its group count follows from that. |
| UserSerializers.AddToGroupMembers | apps/users/serializers.py:78-84 | One loop step appends the post to its own group only, and a new name gets the group [post]. |
| UserSerializers.GroupLoop | apps/users/serializers.py:73-84 | After the loop, the groups are the distinct country names in order of first appearance. Each holds exactly that name's posts in query order. Group sizes sum to the number of posts. |
| UserSerializers.PostsByCountry | apps/users/serializers.py:57-87 | The author's posts grouped by country name, or "Без страны" without a country. No posts give no groups. Keys are distinct, in order of first appearance. Each group holds exactly that key's posts in query order, so every post is in exactly one group. |
| UserSerializers.GroupMembership | apps/users/serializers.py:73-84 | A group is never empty, and holds exactly the author's posts whose country name is its key. |
| PostSerializer.ValidateBody | apps/posts/serializers.py:31-34 | A body is rejected iff shorter than 3 characters, with "Содержимое поста должно содержать минимум 3 символа.". Otherwise it is returned unchanged. |
| PostSerializer.ValidatePost | apps/posts/serializers.py:22-34 | Accepted iff the title, the body (CharField plus the 3-character hook) and the images list all pass. A failure names exactly the failing fields among title, body and images. Validated data only has writable declared fields and never `tags`: a conforming title, a body of at least 3 characters, and the images list as sent. |
| PostSerializer.CheckImages | apps/posts/serializers.py:24 | images is required, non-null and must be a list. The list is passed on as sent. |
| PostSerializer.BodyDecides | apps/posts/serializers.py:31-34 | For any conforming title and an images list, a string body is accepted iff it has at least 3 characters and no NUL, and then it is kept as sent. |
| PostSerializer.InputTagsIgnored | apps/posts/serializers.py:25 | tags sent by the client never influence validation. |
| UserManager.SetDefault | apps/users/models.py:21-22 | setdefault keeps a caller's value and otherwise adds the default, leaving every other key unchanged. |
| UserManager.CreateUserBase | apps/users/models.py:12-18 | A falsy email fails with "The given value must be set". Otherwise the attributes are exactly the extra fields, the email and the hashed password. |
| UserManager.CreateUser | apps/users/models.py:20-23 | is_staff and is_superuser are False unless the caller supplies them. The stored password is the hash. |
| UserManager.CreateSuperuser | apps/users/models.py:25-35 | Succeeds iff the email is truthy and any supplied is_staff / is_superuser is exactly True. A bad is_staff is reported first, before the email check. On success both flags are True and is_active defaults to True. |
| UserManager.FlagDefaults | apps/users/models.py:20-28 | Without flags, a user has neither flag and a superuser has both. |
| UserManager.TruthyFlagIsNotTrue | apps/users/models.py:30-31 | A merely truthy is_staff (1) is still refused: the test is `is not True`. |
| UserServices.SignUp | apps/users/services/user.py:16-42 | One new row with the given fields and the hashed password. Every earlier row is unchanged. |
| UserServices.SignUpStoresHash | apps/users/services/user.py:40-41 | The stored password is never the raw argument (unless it is its own hash). |
| UserServices.Login | apps/users/services/user.py:70-89 | Success only for the user with that email whose password checks. The response carries that user's id and token pair. An unknown email gives 404, and a wrong password gives a ValidationError keyed `password`. |
| UserServices.LoginDecides | apps/users/services/user.py:83-89 | With unique emails, a known email logs in iff the password checks, and as that user. Otherwise it fails with "Invalid password.". |
| UserServices.SubscribeToUser | apps/users/services/user.py:127-130 | 404 iff the target does not exist. Otherwise the target is added to the followed users. |
| UserServices.UnsubscribeFromUser | apps/users/services/user.py:132-135 | 404 iff the target does not exist. Otherwise the target is removed from the followed users. |
| UserServices.SubscribeToCountry | apps/users/services/user.py:137-139 | The country is added; users and tags are unchanged. |
| UserServices.UnsubscribeFromCountry | apps/users/services/user.py:141-143 | The country is removed; users and tags are unchanged. |
| UserServices.SubscribeToTag | apps/users/services/user.py:145-147 | The tag is added; users and countries are unchanged. |
| UserServices.UnsubscribeFromTag | apps/users/services/user.py:149-151 | The tag is removed; users and countries are unchanged. |
| UserServices.SubscriptionLaws | apps/users/services/user.py:127-151 | Subscribing twice equals subscribing once. Unsubscribing undoes a new subscription. Removing an absent country changes nothing. |
| UserServices.CountsFor | apps/users/services/user.py:110-118 | post_count is the number of the user's posts. country_count ≤ post_count, and it is 0 iff none of the user's posts has a country. |
| UserServices.CountryCountIsDistinctCountries | apps/users/services/user.py:115-118 | country_count is the number of distinct countries among the user's posts. |
| UserServices.UsersWithCounts | apps/users/services/user.py:110-118 | Every user is annotated, in order, with that user's own post and distinct-country counts (CountsFor), so country_count ≤ post_count. |
| CountryServices.CountriesWithPosts | apps/countries/services/country.py:13-17 | Exactly the countries with at least one post, as a subsequence of the table in table order, with no country repeated more often than in the table. |
| CountryServices.RetrieveCountry | apps/countries/services/country.py:27-45 | An absent id fails with "<Model> does not exist.". Otherwise the result is the stored country and the remote data for its name; remote failures propagate unchanged. |
| CountryServices.MissingCountryNeedsNoRequest | apps/countries/services/country.py:40-41 | For an absent id the answer does not depend on the transport: no remote call is made. |
| CountryServices.RetrieveReturnsRemoteData | apps/countries/services/country.py:41-45 | On success the data is exactly the validated answer to the request naming the stored country. |

## Left out

- Network transport and JSON decoding: a response is a status and an optional decoded body (None: not JSON). Floating-point JSON numbers are not modelled.
- RequestService.UrlJoin: a simplified `urllib.parse.urljoin`. These are not modelled:
  - dot segments;
  - collapsing of empty interior segments;
  - scheme case folding;
  - same-scheme relative references;
  - a query or fragment on the base.

  The country client only joins a relative `name/<country>` onto its base URL.
- RequestService.JoinOntoDirectory: stated only for a lower-case `http`/`https` base without params, query, fragment, bracketed host, tab, CR or LF, and an endpoint without `;`, `?`, `#`, tab, CR or LF, with no empty, `.` or `..` segment in either path. On other inputs `urljoin` lower-cases the scheme, splits off params, query and fragment, drops the base query, removes tab/CR/LF, or normalises the path. `RequestService.UrlJoin` does none of that.
- CountryLayer.CountryRequestShape: stated only for a base URL and a country name meeting the same conditions. A name such as `..`, `.?x` or `..;y` is resolved or split by `urljoin`, and the model does not do that.
- CountryLayer.WithAccessKey: returns a new map. The source writes the key into the caller's own `params` dict, which the caller then also sees. No caller in the repository passes `params`.
- DRF whitespace trimming in CharField is not modelled, nor are the email-format and uniqueness validators of the registration serializer (the latter need the database).
- PostSerializer.ValidatePost: does not validate the fields of each `PostImageSerializer` item, or that the `country` key exists. Nested writes are not modelled.
- The Django ORM engine is not modelled: query compilation, transactions, `IntegrityError` on unique fields, and the order the database gives to ties.
- Dashboard.TopUsers: a user without posts counts as 0 likes. SQL `Sum` gives NULL for such a user, and where NULL sorts under `-total_likes` depends on the database.
- Password hashing, password checking and JWT issuing are parameters. Logout and token blacklisting (apps/users/services/jwt.py) are not part of this model.
- `set_password(None)` (an unusable password) is not modelled: passwords are strings.
- `BaseService.create` re-raising a Django `ValidationError`: `save()` does not run model validation, so that path is not modelled.
- `PostService`, `CountryService` and `UserService` (apps/posts/services/posts.py:68-101, apps/countries/services/country.py:48-66, apps/users/services/user.py:154-203) are one-line delegations. Each returns the result of a member modelled above unchanged. `CreatePostService`, `UpdatePostService`, `DeletePostService`, `RetrievePostService`, `UserUpdateService` and `ListCountryService.get_all` are `BaseService` with a model set.
- `UserService.subscribe_to_user` passes a user object where `SubscriptionService` expects an id. The target is modelled as a key.
- UserSerializers.PostsByCountry: groups hold the post rows rather than their `PostSerializer(post).data`. The debug `print` calls are not modelled.
- Views, URL routing, pagination, admin, swagger decorators and migrations: request/response plumbing and declarations with no logic of their own.

=== FILE: base_service.dfy ===
/** `BaseService`: create / get_all / get_by_id / update / delete / filter over
    one model's table, seen as a map from primary key to row. Rows handled by
    the attribute operations are maps from field name to value, so that
    `Model(**kwargs)`, `setattr` and `filter(**parameters)` read literally. */
module BaseService {

  import opened Wrappers
  import opened Failures

  /** A model's table. `nextId` is the next auto-increment key. */
  datatype Store<R> = Store(modelName: string, rows: map<nat, R>, nextId: nat)

  /** Auto-increment keys: every existing key was issued before `nextId`. */
  predicate Valid<R>(s: Store<R>) {
    forall id :: id in s.rows ==> id < s.nextId
  }

  datatype Created<R> = Created(store: Store<R>, id: nat, row: R)

  /** The JsonResponse `delete` returns. */
  datatype DeleteResponse = DeleteResponse(message: string, status: int)

  function DoesNotExist(modelName: string): Failure {
    ValidationError(Message(modelName + " does not exist."))
  }

  /** `BaseService.create(**fields)`: one new row holding exactly `fields`. */
  function Create<V>(s: Store<map<string, V>>, fields: map<string, V>): (r: Created<map<string, V>>)
    requires Valid(s)
    ensures Valid(r.store)
    ensures r.id !in s.rows
    ensures r.row == fields
    ensures r.store.rows == s.rows[r.id := fields]
    ensures r.store.modelName == s.modelName
  {
    Created(Store(s.modelName, s.rows[s.nextId := fields], s.nextId + 1), s.nextId, fields)
  }

  /** `BaseService.get_all()`. */
  function GetAll<R>(s: Store<R>): map<nat, R> {
    s.rows
  }

  /** `BaseService.get_by_id(object_id)`. */
  function GetById<R>(s: Store<R>, id: nat): (r: Result<R, Failure>)
    ensures r.Success? <==> id in s.rows
    ensures r.Success? ==> r.value == s.rows[id]
    ensures r.Failure? ==> r.error == ValidationError(Message(s.modelName + " does not exist."))
  {
    if id in s.rows then Success(s.rows[id]) else Failure(DoesNotExist(s.modelName))
  }

  /** `BaseService.update(object_id, **changes)`: the row gets exactly the given
      attributes; on failure no new store exists, so nothing changed. */
  function Update<V>(s: Store<map<string, V>>, id: nat, changes: map<string, V>): (r: Result<Store<map<string, V>>, Failure>)
    ensures r.Failure? <==> id !in s.rows
    ensures r.Failure? ==> r.error == GetById(s, id).error
    ensures r.Success? ==> r.value.modelName == s.modelName && r.value.nextId == s.nextId
    ensures r.Success? ==> r.value.rows.Keys == s.rows.Keys
    ensures r.Success? ==> forall other :: other in s.rows && other != id ==> r.value.rows[other] == s.rows[other]
    ensures r.Success? ==> forall f :: f in changes ==> f in r.value.rows[id] && r.value.rows[id][f] == changes[f]
    ensures r.Success? ==> forall f :: f !in changes ==>
      (f in r.value.rows[id] <==> f in s.rows[id]) && (f in s.rows[id] ==> r.value.rows[id][f] == s.rows[id][f])
  {
    var row :- GetById(s, id);
    Success(Store(s.modelName, s.rows[id := row + changes], s.nextId))
  }

  /** `BaseService.delete(object_id)`. */
  function Delete<R>(s: Store<R>, id: nat): (r: Result<(Store<R>, DeleteResponse), Failure>)
    ensures r.Failure? <==> id !in s.rows
    ensures r.Failure? ==> r.error == GetById(s, id).error
    ensures r.Success? ==> r.value.0.rows == map k | k in s.rows && k != id :: s.rows[k]
    ensures r.Success? ==> r.value.0.modelName == s.modelName && r.value.0.nextId == s.nextId
    ensures r.Success? ==> r.value.1 == DeleteResponse(s.modelName + " deleted successfully.", 200)
  {
    var _ :- GetById(s, id);
    Success((Store(s.modelName, s.rows - {id}, s.nextId), DeleteResponse(s.modelName + " deleted successfully.", 200)))
  }

  /** A row matches a filter when it holds every parameter's value. */
  predicate Matches<V(==)>(row: map<string, V>, parameters: map<string, V>) {
    forall f :: f in parameters ==> f in row && row[f] == parameters[f]
  }

  /** `BaseService.filter(parameters, ...)`: the rows matching every parameter. */
  function Filter<V(==)>(s: Store<map<string, V>>, parameters: map<string, V>): (r: map<nat, map<string, V>>)
    ensures forall id :: id in r <==> id in s.rows && Matches(s.rows[id], parameters)
    ensures forall id :: id in r ==> r[id] == s.rows[id]
  {
    map id | id in s.rows && Matches(s.rows[id], parameters) :: s.rows[id]
  }

  /** `get_object_or_404(model, **parameters)`: exactly one match or an error. */
  function GetOr404<V(==)>(s: Store<map<string, V>>, parameters: map<string, V>): (r: Result<nat, Failure>)
    ensures r.Success? ==> r.value in s.rows && Matches(s.rows[r.value], parameters)
    ensures r.Success? ==> forall id :: id in s.rows && Matches(s.rows[id], parameters) ==> id == r.value
    ensures r == Failure(NotFound) <==> forall id :: id in s.rows ==> !Matches(s.rows[id], parameters)
    ensures r.Failure? ==> r.error == NotFound || r.error == MultipleObjectsReturned
    ensures r == Failure(MultipleObjectsReturned) ==>
      exists a, b :: a != b && a in s.rows && b in s.rows && Matches(s.rows[a], parameters) && Matches(s.rows[b], parameters)
  {
    var hits := Filter(s, parameters).Keys;
    if hits == {} then Failure(NotFound)
    else
      var id := Smallest(hits);
      if hits == {id} then Success(id)
      else
        assert exists b :: b in hits && b != id by {
          assert hits - {id} != {};
          var b :| b in hits - {id};
        }
        Failure(MultipleObjectsReturned)
  }

  function Smallest(ids: set<nat>): (m: nat)
    requires ids != {}
    ensures m in ids && forall k :: k in ids ==> m <= k
  {
    var k :| k in ids;
    SmallestBelow(ids, k)
  }

  function SmallestBelow(ids: set<nat>, bound: nat): (m: nat)
    requires bound in ids
    ensures m in ids && m <= bound && forall k :: k in ids ==> m <= k
    decreases bound
  {
    if bound == 0 || forall k :: k in ids ==> bound <= k then bound
    else
      var k :| k in ids && k < bound;
      SmallestBelow(ids, k)
  }

  // ------------------------------------------------------------------ lemmas

  /** A created row is found under its new key. */
  lemma CreateThenGet<V>(s: Store<map<string, V>>, fields: map<string, V>)
    requires Valid(s)
    ensures GetById(Create(s, fields).store, Create(s, fields).id) == Success(fields)
    ensures forall id :: id in s.rows ==> GetById(Create(s, fields).store, id) == GetById(s, id)
  {
  }

  /** After a delete the row is gone and every other row is still there. */
  lemma DeleteThenGet<R>(s: Store<R>, id: nat)
    requires id in s.rows
    ensures GetById(Delete(s, id).value.0, id) == Failure(DoesNotExist(s.modelName))
    ensures forall other :: other != id ==> GetById(Delete(s, id).value.0, other) == GetById(s, other)
  {
  }

  /** An updated row matches a filter on the attributes it was given. */
  lemma UpdateThenFilter<V>(s: Store<map<string, V>>, id: nat, changes: map<string, V>)
    requires id in s.rows
    ensures id in Filter(Update(s, id, changes).value, changes)
  {
  }

  /** A filter with no parameters is `get_all`. */
  lemma FilterWithoutParameters<V>(s: Store<map<string, V>>)
    ensures Filter(s, map[]) == GetAll(s)
  {
  }
}

=== FILE: country_layer.dfy ===
/** `CountryLayerService`: the request client specialised with a fixed base URL
    and API key. It adds `access_key` to every call's query parameters, fetches
    `name/{country}` and validates the decoded payload as a list of country
    records. */
module CountryLayer {

  import opened Wrappers
  import opened JsonValues
  import opened CountrySchema
  import opened Failures
  import opened RequestService

  /** The process-wide settings COUNTRY_LAYER_BASE_URL and COUNTRY_LAYER_API_KEY,
      read once and never changed by a call. */
  datatype Config = Config(baseUrl: string, apiKey: string)

  const AccessKey: string := "access_key"
  const JsonHeaders: map<string, string> := map["Content-Type" := "application/json"]
  const CountryNotFoundMessage: string := "Страна не найдена."

  /** The caller's query parameters (None: no `params` were passed) with
      `access_key` set to the API key, overwriting any value the caller gave. */
  function WithAccessKey(params: Option<map<string, string>>, apiKey: string): (r: map<string, string>)
    ensures AccessKey in r && r[AccessKey] == apiKey
    ensures forall k :: k in r <==> k == AccessKey || (params.Some? && k in params.value)
    ensures forall k :: params.Some? && k in params.value && k != AccessKey ==> r[k] == params.value[k]
  {
    var given := if params.Some? then params.value else map[];
    given[AccessKey := apiKey]
  }

  /** `CountryLayerService._make_request`: the generic request against the
      configured base URL, with the API key added to the query parameters. */
  function LayerRequest(config: Config, endpoint: string, verb: Method, headers: map<string, string>,
                        params: Option<map<string, string>>, send: Request -> Transport): (r: Result<Response, Failure>)
    ensures var sent := OutgoingRequest(config.baseUrl, endpoint, verb, headers, WithAccessKey(params, config.apiKey));
      && sent.params[AccessKey] == config.apiKey
      && (send(sent).TransportFailed? ==> r == Failure(TransportError(send(sent).reason)))
      && (send(sent).Delivered? ==> r == Classify(send(sent).response))
  {
    MakeRequest(config.baseUrl, endpoint, verb, headers, WithAccessKey(params, config.apiKey), send)
  }

  /** The endpoint of a by-name lookup: the name interpolated as it is. */
  function NameEndpoint(countryName: string): string {
    "name/" + countryName
  }

  /** The one request `get_country_by_name` hands to the transport. */
  function CountryRequest(config: Config, countryName: string): Request {
    OutgoingRequest(config.baseUrl, NameEndpoint(countryName), Get, JsonHeaders, WithAccessKey(None, config.apiKey))
  }

  /** The by-name request is a GET with the JSON content type whose only query
      parameter is the API key, and whose target is the base URL followed by
      `name/` and the unescaped country name. */
  lemma CountryRequestShape(config: Config, countryName: string)
    requires config.baseUrl != "" && config.baseUrl[|config.baseUrl| - 1] == '/'
    requires |config.baseUrl| < 3 || config.baseUrl[|config.baseUrl| - 3..] != "://"
    requires PlainBase(config.baseUrl)
    requires PlainReference(NameEndpoint(countryName))
    ensures CountryRequest(config, countryName).verb == Get
    ensures CountryRequest(config, countryName).headers == map["Content-Type" := "application/json"]
    ensures CountryRequest(config, countryName).params == map["access_key" := config.apiKey]
    ensures CountryRequest(config, countryName).url == config.baseUrl + "name/" + countryName
  {
    NameEndpointIsRelative(countryName);
    JoinOntoDirectory(config.baseUrl, NameEndpoint(countryName));
    assert WithAccessKey(None, config.apiKey) == map["access_key" := config.apiKey];
  }

  /** `name/...` is a relative path reference: no scheme, no leading '/'. */
  lemma NameEndpointIsRelative(countryName: string)
    ensures NameEndpoint(countryName) != "" && NameEndpoint(countryName)[0] != '/'
    ensures !HasScheme(NameEndpoint(countryName))
  {
    var endpoint := NameEndpoint(countryName);
    assert endpoint[..5] == "name/";
    assert IndexOf(endpoint, ':', 0) >= 4;
    var i := IndexOf(endpoint, ':', 0);
    assert i < |endpoint| ==> !IsSchemeChar(endpoint[4]);
  }

  /** `CountryLayerService._validate_country_data`. */
  function ValidateCountryData(data: Json): Result<seq<CountryRecord>, Failure> {
    match ValidateCountries(data)
    case Success(countries) => Success(countries)
    case Failure(errors) => Failure(ValidationError(CountryErrors(errors)))
  }

  /** `CountryLayerService.get_country_by_name`. */
  function GetCountryByName(config: Config, send: Request -> Transport, countryName: string): (r: Result<seq<CountryRecord>, Failure>)
    ensures r.Success? ==> forall c :: c in r.value ==> ValidRecord(c)
    ensures r.Success? ==>
      && send(CountryRequest(config, countryName)).Delivered?
      && var response := send(CountryRequest(config, countryName)).response;
      && !IsClientError(response.status) && !IsServerError(response.status)
      && response.body.Some? && Truthy(response.body.value)
      && ValidateCountries(response.body.value) == Success(r.value)
  {
    var response :- LayerRequest(config, NameEndpoint(countryName), Get, JsonHeaders, None, send);
    match response.body
    case None => Failure(JsonDecodeError)
    case Some(countryData) =>
      if Truthy(countryData) then ValidateCountryData(countryData)
      else Failure(ValidationError(Message(CountryNotFoundMessage)))
  }

  /** Errors of the transport and of the classification reach the caller unchanged. */
  lemma RequestFailuresPropagate(config: Config, send: Request -> Transport, countryName: string)
    ensures send(CountryRequest(config, countryName)).TransportFailed? ==>
      GetCountryByName(config, send, countryName) == Failure(TransportError(send(CountryRequest(config, countryName)).reason))
    ensures send(CountryRequest(config, countryName)).Delivered? && Classify(send(CountryRequest(config, countryName)).response).Failure? ==>
      GetCountryByName(config, send, countryName) == Classify(send(CountryRequest(config, countryName)).response).PropagateFailure()
    ensures send(CountryRequest(config, countryName)).Delivered? ==>
      var response := send(CountryRequest(config, countryName)).response;
      !IsClientError(response.status) && !IsServerError(response.status) && response.body.None? ==>
        GetCountryByName(config, send, countryName) == Failure(JsonDecodeError)
  {
  }

  /** An empty payload (null, [], {}, "", 0, false) is "country not found" and
      never yields a record. */
  lemma EmptyPayloadIsNotFound(config: Config, send: Request -> Transport, countryName: string)
    requires send(CountryRequest(config, countryName)).Delivered?
    requires var response := send(CountryRequest(config, countryName)).response;
      && !IsClientError(response.status) && !IsServerError(response.status)
      && response.body.Some? && IsEmptyValue(response.body.value)
    ensures GetCountryByName(config, send, countryName) == Failure(ValidationError(Message("Страна не найдена.")))
  {
    FalsyIffEmpty(send(CountryRequest(config, countryName)).response.body.value);
  }

  /** A non-empty payload succeeds exactly when every element validates, and
      then the result is the validated list itself. */
  lemma PayloadDecides(config: Config, send: Request -> Transport, countryName: string)
    requires send(CountryRequest(config, countryName)).Delivered?
    requires var response := send(CountryRequest(config, countryName)).response;
      && !IsClientError(response.status) && !IsServerError(response.status)
      && response.body.Some? && Truthy(response.body.value)
    ensures var data := send(CountryRequest(config, countryName)).response.body.value;
      GetCountryByName(config, send, countryName) == ValidateCountryData(data)
  {
  }

  // ----------------------------------------------------------------- scenarios

  const France := CountryRecord("France", [".fr"], "FR", "FRA", ["33"], "Paris", ["French Republic"], "Europe")

  function Answer(status: int, body: Option<Json>): Request -> Transport {
    (req: Request) => Delivered(Response(status, body))
  }

  /** Status 200 with a one-element list holding the French record returns
      exactly that record. */
  lemma FranceListIsReturned(config: Config)
    ensures GetCountryByName(config, Answer(200, Some(JArray([Encode(France)]))), "France") == Success([France])
  {
    FranceIsValid();
    ListIsReturned(config, [France], "France");
    EncodeOne(France);
  }

  lemma EncodeOne(r: CountryRecord)
    ensures EncodeAll([r]) == JArray([Encode(r)])
  {
    var items := EncodeAll([r]).items;
    assert |items| == 1 && items[0] == Encode(r);
    assert items == [Encode(r)];
  }

  lemma FranceIsValid()
    ensures ValidRecord(France)
  {
    assert |France.name| == 6 && |France.alpha2Code| == 2 && |France.alpha3Code| == 3;
  }

  /** Status 200 with a non-empty list of conforming records returns exactly
      those records. */
  lemma ListIsReturned(config: Config, rs: seq<CountryRecord>, countryName: string)
    requires rs != [] && forall r :: r in rs ==> ValidRecord(r)
    ensures GetCountryByName(config, Answer(200, Some(EncodeAll(rs))), countryName) == Success(rs)
  {
    var body := EncodeAll(rs);
    assert Truthy(body);
    PayloadDecides(config, Answer(200, Some(body)), countryName);
    EncodeListThenValidate(rs);
  }

  /** The same record sent as a bare object, not inside a list, is rejected:
      the list field does not wrap a single object. */
  lemma FranceObjectIsRejected(config: Config)
    ensures GetCountryByName(config, Answer(200, Some(Encode(France))), "France")
      == Failure(ValidationError(CountryErrors(PayloadNotAList)))
  {
    var body := Encode(France);
    assert "name" in body.fields;
    PayloadDecides(config, Answer(200, Some(body)), "France");
  }

  /** Status 404 with `{"message": "Country not found"}` fails with
      `ClientNotFoundError` carrying that message. */
  lemma NotFoundMessageIsReported(config: Config)
    ensures GetCountryByName(config, Answer(404, Some(JObject(map["message" := JString("Country not found")]))), "Atlantis")
      == Failure(ClientNotFoundError(JString("Country not found")))
  {
  }

  /** Status 503 with an empty (non-JSON) body fails with `HubServerError`. */
  lemma UnavailableIsServerError(config: Config)
    ensures GetCountryByName(config, Answer(503, None), "France") == Failure(HubServerError)
  {
  }
}

=== FILE: country_schema.dfy ===
/** The schema the country-data client validates remote payloads against:
    `CountryLayerSerializer` (one record) wrapped as the `many=True` list field
    `countries` of `CountryLayerListSerializer`. */
module CountrySchema {

  import opened Wrappers
  import opened JsonValues
  import opened Fields

  /** A validated record: exactly the eight declared fields; every other key of
      the remote object is dropped. */
  datatype CountryRecord = CountryRecord(
    name: string,
    topLevelDomain: seq<string>,
    alpha2Code: string,
    alpha3Code: string,
    callingCodes: seq<string>,
    capital: string,
    altSpellings: seq<string>,
    region: string)

  const NameSpec := CharSpec(Some(255), None, false)
  const DomainSpec := CharSpec(Some(10), None, false)
  const Alpha2Spec := CharSpec(Some(2), None, false)
  const Alpha3Spec := CharSpec(Some(3), None, false)
  const CallingCodeSpec := CharSpec(Some(5), None, false)
  const CapitalSpec := CharSpec(Some(255), None, true)
  const SpellingSpec := CharSpec(Some(255), None, false)
  const RegionSpec := CharSpec(Some(255), None, false)

  const FieldNames: set<string> :=
    {"name", "topLevelDomain", "alpha2Code", "alpha3Code", "callingCodes", "capital", "altSpellings", "region"}


  /** The constraints of the schema, stated on a record. */
  predicate ValidRecord(r: CountryRecord) {
    && Conforms(NameSpec, r.name)
    && (forall d :: d in r.topLevelDomain ==> Conforms(DomainSpec, d))
    && Conforms(Alpha2Spec, r.alpha2Code)
    && Conforms(Alpha3Spec, r.alpha3Code)
    && (forall c :: c in r.callingCodes ==> Conforms(CallingCodeSpec, c))
    && Conforms(CapitalSpec, r.capital)
    && (forall a :: a in r.altSpellings ==> Conforms(SpellingSpec, a))
    && Conforms(RegionSpec, r.region)
  }

  /** Errors of one list element; `Clean` is the `{}` DRF reports for a valid element. */
  datatype ItemErrors =
    | Clean
    | ItemNull                       // the element is null
    | NotADictionary                 // the element is not an object
    | FieldErrors(fields: seq<(string, FieldError)>)

  /** `serializer.errors['countries']`. */
  datatype PayloadErrors =
    | PayloadNull
    | PayloadNotAList
    | ItemsInvalid(items: seq<ItemErrors>)

  /** The outcome of each declared field's validation, in declaration order. */
  datatype Checked = Checked(
    name: Result<string, seq<Reason>>,
    topLevelDomain: Result<seq<string>, FieldError>,
    alpha2Code: Result<string, seq<Reason>>,
    alpha3Code: Result<string, seq<Reason>>,
    callingCodes: Result<seq<string>, FieldError>,
    capital: Result<string, seq<Reason>>,
    altSpellings: Result<seq<string>, FieldError>,
    region: Result<string, seq<Reason>>)

  /** Each declared field's validator applied to the value under its key. */
  function CheckFields(m: map<string, Json>): Checked {
    Checked(
      ValidateChar(NameSpec, Member(m, "name")),
      ValidateCharList(DomainSpec, Member(m, "topLevelDomain")),
      ValidateChar(Alpha2Spec, Member(m, "alpha2Code")),
      ValidateChar(Alpha3Spec, Member(m, "alpha3Code")),
      ValidateCharList(CallingCodeSpec, Member(m, "callingCodes")),
      ValidateChar(CapitalSpec, Member(m, "capital")),
      ValidateCharList(SpellingSpec, Member(m, "altSpellings")),
      ValidateChar(RegionSpec, Member(m, "region")))
  }

  predicate AllPass(c: Checked) {
    && c.name.Success? && c.topLevelDomain.Success? && c.alpha2Code.Success? && c.alpha3Code.Success?
    && c.callingCodes.Success? && c.capital.Success? && c.altSpellings.Success? && c.region.Success?
  }

  function Assemble(c: Checked): CountryRecord
    requires AllPass(c)
  {
    CountryRecord(c.name.value, c.topLevelDomain.value, c.alpha2Code.value, c.alpha3Code.value,
                  c.callingCodes.value, c.capital.value, c.altSpellings.value, c.region.value)
  }

  /** The error entry of one CharField: its reasons under its name, or nothing. */
  function CharErrors(field: string, r: Result<string, seq<Reason>>): (errors: seq<(string, FieldError)>)
    ensures r.Failure? ==> errors == [(field, Reasons(r.error))]
    ensures r.Success? <==> errors == []
  {
    if r.Failure? then [(field, Reasons(r.error))] else []
  }

  /** The error entry of one ListField: its per-item reasons under its name, or nothing. */
  function ListErrors(field: string, r: Result<seq<string>, FieldError>): (errors: seq<(string, FieldError)>)
    ensures r.Failure? ==> errors == [(field, r.error)]
    ensures r.Success? <==> errors == []
  {
    if r.Failure? then [(field, r.error)] else []
  }

  /** The errors of the first four declared fields. */
  function FirstErrors(c: Checked): (errors: seq<(string, FieldError)>)
    ensures forall e :: e in errors ==> e.0 in FieldNames && FieldFailed(c, e.0)
    ensures errors == [] <==> c.name.Success? && c.topLevelDomain.Success? && c.alpha2Code.Success? && c.alpha3Code.Success?
    ensures c.name.Failure? ==> ("name", Reasons(c.name.error)) in errors
    ensures c.topLevelDomain.Failure? ==> ("topLevelDomain", c.topLevelDomain.error) in errors
    ensures c.alpha2Code.Failure? ==> ("alpha2Code", Reasons(c.alpha2Code.error)) in errors
    ensures c.alpha3Code.Failure? ==> ("alpha3Code", Reasons(c.alpha3Code.error)) in errors
  {
    CharErrors("name", c.name) + ListErrors("topLevelDomain", c.topLevelDomain) + CharErrors("alpha2Code", c.alpha2Code) + CharErrors("alpha3Code", c.alpha3Code)
  }

  /** The errors of the last four declared fields. */
  function LaterErrors(c: Checked): (errors: seq<(string, FieldError)>)
    ensures forall e :: e in errors ==> e.0 in FieldNames && FieldFailed(c, e.0)
    ensures errors == [] <==> c.callingCodes.Success? && c.capital.Success? && c.altSpellings.Success? && c.region.Success?
    ensures c.callingCodes.Failure? ==> ("callingCodes", c.callingCodes.error) in errors
    ensures c.capital.Failure? ==> ("capital", Reasons(c.capital.error)) in errors
    ensures c.altSpellings.Failure? ==> ("altSpellings", c.altSpellings.error) in errors
    ensures c.region.Failure? ==> ("region", Reasons(c.region.error)) in errors
  {
    ListErrors("callingCodes", c.callingCodes) + CharErrors("capital", c.capital) + ListErrors("altSpellings", c.altSpellings) + CharErrors("region", c.region)
  }

  /** Whether the declared field called `field` failed its validation. */
  predicate FieldFailed(c: Checked, field: string) {
    if field == "name" then c.name.Failure?
    else if field == "topLevelDomain" then c.topLevelDomain.Failure?
    else if field == "alpha2Code" then c.alpha2Code.Failure?
    else if field == "alpha3Code" then c.alpha3Code.Failure?
    else if field == "callingCodes" then c.callingCodes.Failure?
    else if field == "capital" then c.capital.Failure?
    else if field == "altSpellings" then c.altSpellings.Failure?
    else if field == "region" then c.region.Failure?
    else false
  }

  /** `serializer.errors` of one element: every failing field under its name,
      in declaration order. */
  function CollectErrors(c: Checked): (errors: seq<(string, FieldError)>)
    ensures forall e :: e in errors ==> e.0 in FieldNames && FieldFailed(c, e.0)
    ensures !AllPass(c) <==> errors != []
    ensures c.name.Failure? ==> ("name", Reasons(c.name.error)) in errors
    ensures c.topLevelDomain.Failure? ==> ("topLevelDomain", c.topLevelDomain.error) in errors
    ensures c.alpha2Code.Failure? ==> ("alpha2Code", Reasons(c.alpha2Code.error)) in errors
    ensures c.alpha3Code.Failure? ==> ("alpha3Code", Reasons(c.alpha3Code.error)) in errors
    ensures c.callingCodes.Failure? ==> ("callingCodes", c.callingCodes.error) in errors
    ensures c.capital.Failure? ==> ("capital", Reasons(c.capital.error)) in errors
    ensures c.altSpellings.Failure? ==> ("altSpellings", c.altSpellings.error) in errors
    ensures c.region.Failure? ==> ("region", Reasons(c.region.error)) in errors
  {
    FirstErrors(c) + LaterErrors(c)
  }

  lemma CheckedFieldsConform(m: map<string, Json>)
    requires AllPass(CheckFields(m))
    ensures ValidRecord(Assemble(CheckFields(m)))
  {
  }

  /** `CountryLayerSerializer.run_validation` on one element of the list. */
  function ValidateCountry(j: Json): (r: Result<CountryRecord, ItemErrors>)
    ensures r.Success? ==> ValidRecord(r.value)
    ensures r.Failure? ==> r.error != Clean
    ensures j == JNull ==> r == Failure(ItemNull)
    ensures !j.JObject? && j != JNull ==> r == Failure(NotADictionary)
    ensures r.Failure? && r.error.FieldErrors? ==> r.error.fields != [] && forall e :: e in r.error.fields ==> e.0 in FieldNames
    ensures j.JObject? ==> (r.Success? <==> AllPass(CheckFields(j.fields)))
    ensures j.JObject? && r.Failure? ==> r.error == FieldErrors(CollectErrors(CheckFields(j.fields)))
  {
    match j
    case JNull => Failure(ItemNull)
    case JObject(m) =>
      var c := CheckFields(m);
      if AllPass(c) then
        CheckedFieldsConform(m);
        Success(Assemble(c))
      else
        Failure(FieldErrors(CollectErrors(c)))
    case _ => Failure(NotADictionary)
  }

  /** `CountryLayerListSerializer(data={'countries': payload})`: the payload must be
      a list; every element is validated and any failure rejects the whole list. */
  function ValidateCountries(payload: Json): (r: Result<seq<CountryRecord>, PayloadErrors>)
    ensures payload.JArray? ==>
      (r.Success? <==> forall i :: 0 <= i < |payload.items| ==> ValidateCountry(payload.items[i]).Success?)
    ensures r.Success? ==> payload.JArray? && |r.value| == |payload.items|
    ensures r.Success? ==> forall i :: 0 <= i < |r.value| ==> ValidateCountry(payload.items[i]) == Success(r.value[i])
    ensures r.Success? ==> forall c :: c in r.value ==> ValidRecord(c)
    ensures !payload.JArray? ==> r.Failure?
    ensures payload.JArray? && r.Failure? ==> r.error.ItemsInvalid? && |r.error.items| == |payload.items|
    ensures payload.JArray? && r.Failure? ==>
      forall i :: 0 <= i < |payload.items| ==> (r.error.items[i] == Clean <==> ValidateCountry(payload.items[i]).Success?)
    ensures payload.JArray? && r.Failure? ==> exists i :: 0 <= i < |payload.items| && r.error.items[i] != Clean
    ensures payload.JArray? && r.Failure? ==>
      forall i :: 0 <= i < |payload.items| && ValidateCountry(payload.items[i]).Failure? ==>
        r.error.items[i] == ValidateCountry(payload.items[i]).error
  {
    match payload
    case JNull => Failure(PayloadNull)
    case JArray(items) =>
      (match ValidateEach(items, ValidateCountry)
       case Success(records) => Success(records)
       case Failure(errors) =>
         assert exists i: nat :: i in errors by {
           var k :| k in errors;
         }
         Failure(ItemsInvalid(PerItem(|items|, errors))))
    case _ => Failure(PayloadNotAList)
  }

  /** The aggregated `serializer.errors` of a list of `n` elements: one entry per
      element, the element's own errors where it failed and `Clean` elsewhere. */
  function PerItem(n: nat, errors: map<nat, ItemErrors>): (r: seq<ItemErrors>)
    requires forall i: nat :: i in errors ==> i < n && errors[i] != Clean
    ensures |r| == n
    ensures forall i: nat :: i < n ==> (r[i] == Clean <==> i !in errors)
    ensures forall i: nat :: i in errors ==> r[i] == errors[i]
  {
    seq(n, i requires 0 <= i < n => if i in errors then errors[i] else Clean)
  }

  /** The JSON object a conforming upstream sends for a record. */
  function Encode(r: CountryRecord): Json {
    JObject(map[
      "name" := JString(r.name),
      "topLevelDomain" := Strings(r.topLevelDomain),
      "alpha2Code" := JString(r.alpha2Code),
      "alpha3Code" := JString(r.alpha3Code),
      "callingCodes" := Strings(r.callingCodes),
      "capital" := JString(r.capital),
      "altSpellings" := Strings(r.altSpellings),
      "region" := JString(r.region)])
  }

  function Strings(ss: seq<string>): (r: Json)
    ensures r.JArray? && |r.items| == |ss|
    ensures forall i :: 0 <= i < |ss| ==> r.items[i] == JString(ss[i])
  {
    JArray(seq(|ss|, i requires 0 <= i < |ss| => JString(ss[i])))
  }

  lemma StringsValidate(spec: CharSpec, ss: seq<string>)
    requires forall s :: s in ss ==> Conforms(spec, s)
    ensures ValidateCharList(spec, Some(Strings(ss))) == Success(ss)
  {
    var items := Strings(ss).items;
    forall i | 0 <= i < |items|
      ensures ValidateChar(spec, Some(items[i])) == Success(ss[i])
    {
      assert ss[i] in ss;
      assert items[i] == JString(ss[i]);
    }
    var r := ValidateCharList(spec, Some(Strings(ss)));
    assert r.Success?;
    assert |r.value| == |ss|;
    forall i | 0 <= i < |ss|
      ensures r.value[i] == ss[i]
    {
      assert ValidateChar(spec, Some(items[i])) == Success(r.value[i]);
    }
    assert r.value == ss;
  }

  lemma EncodedFieldsPass(r: CountryRecord)
    requires ValidRecord(r)
    ensures CheckFields(Encode(r).fields) ==
      Checked(Success(r.name), Success(r.topLevelDomain), Success(r.alpha2Code), Success(r.alpha3Code),
              Success(r.callingCodes), Success(r.capital), Success(r.altSpellings), Success(r.region))
  {
    EncodedMembers(r);
    StringsValidate(DomainSpec, r.topLevelDomain);
    StringsValidate(CallingCodeSpec, r.callingCodes);
    StringsValidate(SpellingSpec, r.altSpellings);
  }

  /** Each schema key of the encoding holds the matching field. */
  lemma EncodedMembers(r: CountryRecord)
    ensures var m := Encode(r).fields;
      && Member(m, "name") == Some(JString(r.name))
      && Member(m, "topLevelDomain") == Some(Strings(r.topLevelDomain))
      && Member(m, "alpha2Code") == Some(JString(r.alpha2Code))
      && Member(m, "alpha3Code") == Some(JString(r.alpha3Code))
      && Member(m, "callingCodes") == Some(Strings(r.callingCodes))
      && Member(m, "capital") == Some(JString(r.capital))
      && Member(m, "altSpellings") == Some(Strings(r.altSpellings))
      && Member(m, "region") == Some(JString(r.region))
  {
  }

  /** Round trip: a record meeting the schema, sent as JSON, validates to itself;
      validation neither truncates nor coerces a conforming value. */
  lemma EncodeThenValidate(r: CountryRecord)
    requires ValidRecord(r)
    ensures ValidateCountry(Encode(r)) == Success(r)
  {
    var m := Encode(r).fields;
    EncodedFieldsPass(r);
    ObjectValidates(m);
  }

  /** An object whose fields all pass validates to the record they assemble. */
  lemma ObjectValidates(m: map<string, Json>)
    requires AllPass(CheckFields(m))
    ensures ValidateCountry(JObject(m)) == Success(Assemble(CheckFields(m)))
  {
  }

  /** The schema is exactly the set of records validation can produce. */
  lemma ValidRecordIffValidates(r: CountryRecord)
    ensures ValidRecord(r) <==> exists j :: ValidateCountry(j) == Success(r)
  {
    if ValidRecord(r) {
      EncodeThenValidate(r);
    }
  }

  /** The list of JSON objects a conforming upstream sends for `rs`. */
  function EncodeAll(rs: seq<CountryRecord>): (payload: Json)
    ensures payload.JArray? && |payload.items| == |rs|
    ensures forall i :: 0 <= i < |rs| ==> payload.items[i] == Encode(rs[i])
  {
    JArray(seq(|rs|, i requires 0 <= i < |rs| => Encode(rs[i])))
  }

  /** A payload listing conforming records validates to exactly those records. */
  lemma EncodeListThenValidate(rs: seq<CountryRecord>)
    requires forall r :: r in rs ==> ValidRecord(r)
    ensures ValidateCountries(EncodeAll(rs)) == Success(rs)
  {
    var payload := EncodeAll(rs);
    forall i | 0 <= i < |rs|
      ensures ValidateCountry(payload.items[i]) == Success(rs[i])
    {
      EncodeThenValidate(rs[i]);
    }
    var r := ValidateCountries(payload);
    assert r.Success?;
    forall i | 0 <= i < |rs|
      ensures r.value[i] == rs[i]
    {
      assert ValidateCountry(payload.items[i]) == Success(r.value[i]);
    }
    assert r.value == rs;
  }

  /** An object without `alpha2Code` is rejected with a `required` error under
      that field's name. */
  lemma MissingAlpha2IsReported(m: map<string, Json>)
    requires "alpha2Code" !in m
    ensures ValidateCountry(JObject(m)).Failure?
    ensures ValidateCountry(JObject(m)).error.FieldErrors?
    ensures ("alpha2Code", Reasons([Required])) in ValidateCountry(JObject(m)).error.fields
  {
  }

  /** Keys outside the schema never influence validation. */
  lemma ExtraKeysIgnored(m: map<string, Json>)
    ensures ValidateCountry(JObject(m)) == ValidateCountry(JObject(map k | k in m && k in FieldNames :: m[k]))
  {
    var kept := map k | k in m && k in FieldNames :: m[k];
    forall k | k in FieldNames
      ensures Member(m, k) == Member(kept, k)
    {
    }
    assert CheckFields(m) == CheckFields(kept);
  }
}

=== FILE: country_services.dfy ===
/** The country services: the countries that have at least one post
    (`ListCountryService`) and a country together with the data the
    country-data API returns for its name (`RetrieveCountryService`). */
module CountryServices {

  import opened Wrappers
  import opened Failures
  import opened BaseService
  import opened Models
  import opened Seqs
  import opened CountrySchema
  import opened CountryLayer
  import opened RequestService

  /** The posts whose country is `c` (the reverse relation `country.post_set`). */
  function PostsIn(c: Country, posts: seq<Post>): (r: seq<Post>)
    ensures |r| > 0 <==> exists p :: p in posts && p.country.Some? && p.country.value.id == c.id
  {
    var r := Seqs.Filter(posts, (p: Post) => p.country.Some? && p.country.value.id == c.id);
    assert r != [] ==> r[0] in r;
    r
  }

  /** `get_countries_with_posts`: the countries counted as having at least one
      post, in table order. */
  function CountriesWithPosts(countries: seq<Country>, posts: seq<Post>): (r: seq<Country>)
    ensures forall c :: c in r <==> c in countries && exists p :: p in posts && p.country.Some? && p.country.value.id == c.id
    ensures |r| <= |countries|
    ensures IsSubsequence(r, countries)
    ensures multiset(r) <= multiset(countries)
  {
    var keep := (c: Country) => |PostsIn(c, posts)| > 0;
    FilterKeepsOrder(countries, keep);
    Seqs.Filter(countries, keep)
  }

  /** The result of `RetrieveCountryService.get_by_id`. */
  datatype CountryDetail = CountryDetail(country: Country, countryData: seq<CountryRecord>)

  /** `RetrieveCountryService.get_by_id(object_id)`: the stored country, then
      the remote lookup by its name; any failure of either reaches the caller. */
  function RetrieveCountry(countries: Store<Country>, id: nat, config: Config, send: Request -> Transport): (r: Result<CountryDetail, Failure>)
    ensures id !in countries.rows ==> r == Failure(DoesNotExist(countries.modelName))
    ensures id in countries.rows ==>
      (r.Success? <==> GetCountryByName(config, send, countries.rows[id].name).Success?)
    ensures id in countries.rows && r.Failure? ==> r.error == GetCountryByName(config, send, countries.rows[id].name).error
    ensures r.Success? ==>
      && r.value.country == countries.rows[id]
      && forall c :: c in r.value.countryData ==> ValidRecord(c)
  {
    var country :- GetById(countries, id);
    var data :- GetCountryByName(config, send, country.name);
    Success(CountryDetail(country, data))
  }

  /** A missing country is reported without asking the remote service: the
      answer does not depend on the transport. */
  lemma MissingCountryNeedsNoRequest(countries: Store<Country>, id: nat, config: Config,
                                      send: Request -> Transport, other: Request -> Transport)
    requires id !in countries.rows
    ensures RetrieveCountry(countries, id, config, send) == RetrieveCountry(countries, id, config, other)
  {
  }

  /** The data returned is exactly what the remote service answered, for the
      request naming the stored country, validated. */
  lemma RetrieveReturnsRemoteData(countries: Store<Country>, id: nat, config: Config, send: Request -> Transport)
    requires RetrieveCountry(countries, id, config, send).Success?
    ensures id in countries.rows
    ensures send(CountryRequest(config, countries.rows[id].name)).Delivered?
    ensures var body := send(CountryRequest(config, countries.rows[id].name)).response.body;
      body.Some? && ValidateCountries(body.value) == Success(RetrieveCountry(countries, id, config, send).value.countryData)
  {
  }
}

=== FILE: dashboard.dfy ===
/** `DashboardService`: three rankings computed by the database as
    annotate / order_by / slice. */
module Dashboard {

  import opened Seqs
  import opened Models
  import Posts

  /** A user with the sum of the likes on all of their posts. */
  datatype UserLikes = UserLikes(user: nat, totalLikes: nat)

  /** A tag with the number of posts that carry it. */
  datatype TagCount = TagCount(tag: Tag, postCount: nat)

  function Likes(p: Post): nat {
    p.likes
  }

  function TotalLikes(user: nat, posts: seq<Post>): nat {
    SumOf(Filter(posts, (p: Post) => p.author == user), Likes)
  }

  function PostCount(tag: Tag, posts: seq<Post>): nat {
    |Filter(posts, (p: Post) => tag.id in p.tags)|
  }

  function TotalOf(u: UserLikes): int {
    u.totalLikes
  }

  function CountOf(t: TagCount): int {
    t.postCount
  }

  /** `get_latest_posts`: the three newest posts, newest first. */
  function LatestPosts(posts: seq<Post>): (r: seq<Post>)
    ensures |r| <= 3
    ensures NoDuplicates(posts) ==> |r| == Min(3, |posts|)
    ensures forall p :: p in r ==> p in posts
    ensures NoDuplicates(r)
    ensures Descending(r, CreatedAt)
    ensures forall p, q :: p in r && q in posts && q !in r ==> p.createdAt >= q.createdAt
    ensures |r| < 3 ==> forall q :: q in posts ==> q in r
  {
    Posts.Newest(posts, 3)
  }

  function AnnotateLikes(users: seq<nat>, posts: seq<Post>): (r: seq<UserLikes>)
    ensures |r| == |users|
    ensures forall i :: 0 <= i < |users| ==> r[i] == UserLikes(users[i], TotalLikes(users[i], posts))
  {
    seq(|users|, i requires 0 <= i < |users| => UserLikes(users[i], TotalLikes(users[i], posts)))
  }

  /** `get_top_users`: at most five users, by the sum of their posts' likes,
      highest first; no user left out has more likes than one kept. */
  function TopUsers(users: seq<nat>, posts: seq<Post>): (r: seq<UserLikes>)
    ensures |r| == Min(5, |users|)
    ensures NoDuplicates(users) ==> NoDuplicates(r)
    ensures Descending(r, TotalOf)
    ensures forall e :: e in r ==> e.user in users && e.totalLikes == TotalLikes(e.user, posts)
    ensures forall e, u :: e in r && u in users && UserLikes(u, TotalLikes(u, posts)) !in r ==>
      e.totalLikes >= TotalLikes(u, posts)
  {
    var annotated := AnnotateLikes(users, posts);
    var sorted := SortDescending(annotated, TotalOf);
    PermutationKeepsElements(annotated, sorted);
    EveryUserAnnotated(users, posts);
    TakeOfDescendingIsTop(sorted, 5, TotalOf);
    AnnotatedUsersUnique(users, posts);
    TakeUnique(sorted, 5);
    Take(sorted, 5)
  }

  /** Distinct users give distinct annotations. */
  lemma AnnotatedUsersUnique(users: seq<nat>, posts: seq<Post>)
    ensures NoDuplicates(users) ==> NoDuplicates(AnnotateLikes(users, posts))
  {
    var annotated := AnnotateLikes(users, posts);
    if NoDuplicates(users) {
      forall i, j | 0 <= i < j < |annotated|
        ensures annotated[i] != annotated[j]
      {
        assert annotated[i].user == users[i] && annotated[j].user == users[j];
      }
    }
  }

  lemma EveryUserAnnotated(users: seq<nat>, posts: seq<Post>)
    ensures forall u :: u in users ==> UserLikes(u, TotalLikes(u, posts)) in AnnotateLikes(users, posts)
    ensures forall e :: e in AnnotateLikes(users, posts) ==> e.user in users && e.totalLikes == TotalLikes(e.user, posts)
  {
    var annotated := AnnotateLikes(users, posts);
    forall u | u in users
      ensures UserLikes(u, TotalLikes(u, posts)) in annotated
    {
      var i :| 0 <= i < |users| && users[i] == u;
      assert annotated[i] == UserLikes(u, TotalLikes(u, posts));
    }
  }

  function AnnotateCounts(tags: seq<Tag>, posts: seq<Post>): (r: seq<TagCount>)
    ensures |r| == |tags|
    ensures forall i :: 0 <= i < |tags| ==> r[i] == TagCount(tags[i], PostCount(tags[i], posts))
  {
    seq(|tags|, i requires 0 <= i < |tags| => TagCount(tags[i], PostCount(tags[i], posts)))
  }

  /** `get_tag_cloud`: every tag with its number of posts, most used first;
      no tag is filtered out. */
  function TagCloud(tags: seq<Tag>, posts: seq<Post>): (r: seq<TagCount>)
    ensures |r| == |tags|
    ensures Descending(r, CountOf)
    ensures forall t :: t in tags ==> TagCount(t, PostCount(t, posts)) in r
    ensures forall e :: e in r ==> e.tag in tags && e.postCount == PostCount(e.tag, posts)
  {
    var annotated := AnnotateCounts(tags, posts);
    var sorted := SortDescending(annotated, CountOf);
    PermutationKeepsElements(annotated, sorted);
    EveryTagAnnotated(tags, posts);
    sorted
  }

  lemma EveryTagAnnotated(tags: seq<Tag>, posts: seq<Post>)
    ensures forall t :: t in tags ==> TagCount(t, PostCount(t, posts)) in AnnotateCounts(tags, posts)
    ensures forall e :: e in AnnotateCounts(tags, posts) ==> e.tag in tags && e.postCount == PostCount(e.tag, posts)
  {
    var annotated := AnnotateCounts(tags, posts);
    forall t | t in tags
      ensures TagCount(t, PostCount(t, posts)) in annotated
    {
      var i :| 0 <= i < |tags| && tags[i] == t;
      assert annotated[i] == TagCount(t, PostCount(t, posts));
    }
  }
}

=== FILE: failures.dfy ===
/** Every exception the modelled services raise, as one datatype. The two
    integration errors `ClientNotFoundError` and `HubServerError` are DRF
    `APIException`s with their own status code and default detail. */
module Failures {

  import opened JsonValues
  import opened Fields
  import opened CountrySchema

  /** The payload of a rest_framework `ValidationError`. */
  datatype ValidationDetail =
    | Message(text: string)                           // ValidationError("...")
    | FieldMessage(field: string, text: string)       // ValidationError({field: "..."})
    | SerializerErrors(fields: map<string, seq<Reason>>)  // serializer.errors of a flat serializer
    | CountryErrors(countries: PayloadErrors)         // serializer.errors of the country list

  datatype Failure =
    | ClientNotFoundError(detail: Json)   // JNull: raised with detail=None
    | HubServerError
    | HttpError(status: int)              // requests.HTTPError from raise_for_status()
    | AttributeError                      // `.get` on a decoded body that is not an object
    | JsonDecodeError                     // `response.json()` on a body that is not JSON
    | TransportError(reason: string)      // requests' own connection-level exceptions
    | ValidationError(errors: ValidationDetail)
    | NotFound                            // Http404 from get_object_or_404
    | MultipleObjectsReturned             // get_object_or_404 matching several rows
    | ValueError(message: string)

  const ClientNotFoundDefaultDetail: string := "Неверный формат запроса!"
  const HubServerDefaultDetail: string := "Ошибка сервиса ...!"

  /** Exceptions DRF turns into an HTTP response itself; the others escape the
      view as server errors. */
  predicate IsApiException(f: Failure) {
    f.ClientNotFoundError? || f.HubServerError? || f.ValidationError? || f.NotFound?
  }

  /** The HTTP status DRF answers with for an API exception. */
  function StatusCode(f: Failure): (code: int)
    requires IsApiException(f)
    ensures f.NotFound? <==> code == 404
    ensures code == 400 || code == 404
  {
    if f.NotFound? then 404 else 400
  }

  /** An error detail as DRF stores it: text, or lists and objects of text. */
  predicate IsErrorText(j: Json)
    decreases j
  {
    match j
    case JString(_) => true
    case JArray(items) => forall i :: 0 <= i < |items| ==> IsErrorText(items[i])
    case JObject(fields) => forall k :: k in fields ==> IsErrorText(fields[k])
    case _ => false
  }

  /** Python's `str()` of a scalar JSON value. */
  function ScalarText(j: Json): string
    requires !j.JArray? && !j.JObject?
  {
    match j
    case JNull => "None"
    case JBool(b) => if b then "True" else "False"
    case JNumber(n) => IntToString(n)
    case JString(s) => s
  }

  /** DRF's `_get_error_details`: every scalar becomes its `str()` text,
      lists and objects are converted element by element, keys kept. */
  function ErrorText(j: Json): (r: Json)
    ensures IsErrorText(r)
    ensures !j.JArray? && !j.JObject? ==> r == JString(ScalarText(j))
    ensures j.JArray? ==> r.JArray? && |r.items| == |j.items|
    ensures j.JObject? ==> r.JObject? && r.fields.Keys == j.fields.Keys
    decreases j
  {
    match j
    case JArray(items) => JArray(seq(|items|, i requires 0 <= i < |items| => ErrorText(items[i])))
    case JObject(fields) => JObject(map k | k in fields :: ErrorText(fields[k]))
    case _ => JString(ScalarText(j))
  }

  /** Details that are already text are stored unchanged. */
  lemma {:induction false} ErrorTextKeepsText(j: Json)
    requires IsErrorText(j)
    ensures ErrorText(j) == j
    decreases j
  {
    match j
    case JString(_) =>
    case JArray(items) =>
      forall i | 0 <= i < |items|
        ensures ErrorText(items[i]) == items[i]
      {
        ErrorTextKeepsText(items[i]);
      }
      assert ErrorText(j).items == items;
    case JObject(fields) =>
      forall k | k in fields
        ensures ErrorText(fields[k]) == fields[k]
      {
        ErrorTextKeepsText(fields[k]);
      }
      assert ErrorText(j).fields == fields;
  }

  /** The detail an integration error reports: the given one converted to
      text, or the class's `default_detail` when raised with None. */
  function IntegrationDetail(f: Failure): (d: Json)
    requires f.ClientNotFoundError? || f.HubServerError?
    ensures IsErrorText(d)
    ensures f.HubServerError? ==> d == JString(HubServerDefaultDetail)
    ensures f.ClientNotFoundError? && f.detail != JNull ==> d == ErrorText(f.detail)
    ensures f.ClientNotFoundError? && f.detail.JString? ==> d == f.detail
    ensures f.ClientNotFoundError? && f.detail == JNull ==> d == JString(ClientNotFoundDefaultDetail)
  {
    match f
    case HubServerError => JString(HubServerDefaultDetail)
    case ClientNotFoundError(detail) =>
      if detail == JNull then JString(ClientNotFoundDefaultDetail) else ErrorText(detail)
  }

  /** A numeric or boolean message is reported as its text. */
  lemma ScalarMessagesBecomeText()
    ensures IntegrationDetail(ClientNotFoundError(JNumber(5))) == JString("5")
    ensures IntegrationDetail(ClientNotFoundError(JBool(true))) == JString("True")
  {
    assert IntToString(5) == "5";
  }
}

=== FILE: fields.dfy ===
/** The part of Django REST framework's field validation the serializers of this
    system rely on: `CharField` (with `max_length`, `min_length`, `allow_blank`
    and its built-in null-character validator) and `ListField` of `CharField`. */
module Fields {

  import opened Wrappers
  import opened JsonValues

  /** Why a field rejected its input: one entry per DRF error message. */
  datatype Reason =
    | Required            // key absent
    | Null                // explicit null where allow_null is false
    | Blank               // "" where allow_blank is false
    | Invalid             // not a string or number (bool, list, object)
    | NotAList            // a ListField given something other than a list
    | MaxLength(limit: nat)
    | MinLength(limit: nat)
    | NullCharacter       // ProhibitNullCharactersValidator
    | Custom(message: string)  // raised by a `validate_<field>` hook

  /** The options of one `CharField(...)`. */
  datatype CharSpec = CharSpec(maxLength: Option<nat>, minLength: Option<nat>, allowBlank: bool)

  /** Errors of one field: a flat list, or (for a ListField) the child errors by index. */
  datatype FieldError = Reasons(reasons: seq<Reason>) | ItemReasons(items: map<nat, seq<Reason>>)

  /** The strings a CharField accepts, stated independently of how validation runs. */
  predicate Conforms(spec: CharSpec, s: string) {
    if s == "" then spec.allowBlank
    else
      && (spec.maxLength.Some? ==> |s| <= spec.maxLength.value)
      && (spec.minLength.Some? ==> |s| >= spec.minLength.value)
      && '\0' !in s
  }

  /** `to_internal_value`: strings as they are, integers as `str(n)`, nothing else. */
  function AsText(j: Json): Option<string> {
    match j
    case JString(s) => Some(s)
    case JNumber(n) => Some(IntToString(n))
    case _ => None
  }

  /** Every validator runs and every failure is reported, in declaration order. */
  function ValidatorReasons(spec: CharSpec, s: string): seq<Reason> {
    (if spec.maxLength.Some? && |s| > spec.maxLength.value then [MaxLength(spec.maxLength.value)] else [])
    + (if spec.minLength.Some? && |s| < spec.minLength.value then [MinLength(spec.minLength.value)] else [])
    + (if '\0' in s then [NullCharacter] else [])
  }

  /** `CharField.run_validation` on the value found under its key (None: absent). */
  function ValidateChar(spec: CharSpec, input: Option<Json>): (r: Result<string, seq<Reason>>)
    ensures r.Success? ==> Conforms(spec, r.value)
    ensures r.Success? ==> input.Some? && AsText(input.value) == Some(r.value)
    ensures r.Failure? ==> r.error != []
    ensures input == None ==> r == Failure([Required])
    ensures input == Some(JNull) ==> r == Failure([Null])
    ensures input.Some? && input.value.JString? ==> (r.Success? <==> Conforms(spec, input.value.s))
    ensures input.Some? && input.value.JString? && r.Success? ==> r.value == input.value.s
    ensures input.Some? && AsText(input.value).None? && input != Some(JNull) ==> r == Failure([Invalid])
  {
    match input
    case None => Failure([Required])
    case Some(j) =>
      if j == JNull then Failure([Null])
      else if j == JString("") then
        if spec.allowBlank then Success("") else Failure([Blank])
      else
        match AsText(j)
        case None => Failure([Invalid])
        case Some(s) =>
          var reasons := ValidatorReasons(spec, s);
          if reasons == [] then Success(s) else Failure(reasons)
  }

  /** Runs `check` on every item; succeeds with all results when every item
      passes, otherwise fails with the errors of exactly the failing indices. */
  function ValidateEach<T, U, E>(items: seq<T>, check: T -> Result<U, E>): (r: Result<seq<U>, map<nat, E>>)
    ensures r.Success? <==> forall i :: 0 <= i < |items| ==> check(items[i]).Success?
    ensures r.Success? ==> |r.value| == |items|
    ensures r.Success? ==> forall i :: 0 <= i < |items| ==> check(items[i]) == Success(r.value[i])
    ensures r.Failure? ==> r.error != map[]
    ensures r.Failure? ==> forall i: nat :: i in r.error <==> i < |items| && check(items[i]).Failure?
    ensures r.Failure? ==> forall i: nat :: i in r.error ==> i < |items| && check(items[i]) == Failure(r.error[i])
    decreases |items|
  {
    if items == [] then Success([])
    else
      var n := |items| - 1;
      var init := ValidateEach(items[..n], check);
      var last := check(items[n]);
      match init
      case Success(values) =>
        if last.Success? then Success(values + [last.value])
        else
          assert n in map[n := last.error];
          Failure(map[n := last.error])
      case Failure(errors) =>
        if last.Success? then Failure(errors) else Failure(errors[n := last.error])
  }

  /** `ListField(child=CharField(...))` on the value found under its key. */
  function ValidateCharList(child: CharSpec, input: Option<Json>): (r: Result<seq<string>, FieldError>)
    ensures r.Success? ==> forall s :: s in r.value ==> Conforms(child, s)
    ensures input == None ==> r == Failure(Reasons([Required]))
    ensures input == Some(JNull) ==> r == Failure(Reasons([Null]))
    ensures input.Some? && !input.value.JArray? && input != Some(JNull) ==> r == Failure(Reasons([NotAList]))
    ensures input.Some? && input.value.JArray? ==>
      (r.Success? <==> forall i :: 0 <= i < |input.value.items| ==> ValidateChar(child, Some(input.value.items[i])).Success?)
    ensures input.Some? && input.value.JArray? && r.Success? ==>
      |r.value| == |input.value.items|
      && forall i :: 0 <= i < |r.value| ==> ValidateChar(child, Some(input.value.items[i])) == Success(r.value[i])
  {
    match input
    case None => Failure(Reasons([Required]))
    case Some(j) =>
      match j
      case JNull => Failure(Reasons([Null]))
      case JArray(items) =>
        (match ValidateEach(items, (item: Json) => ValidateChar(child, Some(item)))
         case Success(values) => Success(values)
         case Failure(errors) => Failure(ItemReasons(errors)))
      case _ => Failure(Reasons([NotAList]))
  }
}

=== FILE: json.dfy ===
/** Decoded JSON values as Python sees them after `json.loads`, with the two
    Python idioms the services rely on: truthiness and `dict.get`. */
module JsonValues {

  import opened Wrappers

  /** Numbers are integers: floating point payloads are not modelled. */
  datatype Json =
    | JNull
    | JBool(b: bool)
    | JNumber(n: int)
    | JString(s: string)
    | JArray(items: seq<Json>)
    | JObject(fields: map<string, Json>)

  /** Python truthiness (`if value:`) of a decoded JSON value. */
  predicate Truthy(j: Json) {
    match j
    case JNull => false
    case JBool(b) => b
    case JNumber(n) => n != 0
    case JString(s) => s != ""
    case JArray(items) => items != []
    case JObject(fields) => fields != map[]
  }

  /** `d.get(key)`: Python's None (here JNull) both for an absent key and for an
      explicit null. */
  function DictGet(fields: map<string, Json>, key: string): Json {
    if key in fields then fields[key] else JNull
  }

  /** The serializer's view of one key: None when the key is absent (DRF's
      `empty`), which is distinct from a present null. */
  function Member(fields: map<string, Json>, key: string): Option<Json> {
    if key in fields then Some(fields[key]) else None
  }

  /** The empty values, the only ones a truthiness test rejects. */
  predicate IsEmptyValue(j: Json) {
    j == JNull || j == JBool(false) || j == JNumber(0) || j == JString("")
    || j == JArray([]) || j == JObject(map[])
  }

  lemma FalsyIffEmpty(j: Json)
    ensures !Truthy(j) <==> IsEmptyValue(j)
  {
    match j
    case JArray(items) =>
      assert items == [] <==> j == JArray([]);
    case JObject(fields) =>
      assert fields == map[] <==> j == JObject(map[]);
    case _ =>
  }

  /** Python's `str(n)` for an integer: an optional minus sign and the decimal
      digits, no leading zeros. */
  function IntToString(n: int): (r: string)
    ensures r != []
    ensures '\0' !in r
    ensures n >= 0 ==> forall i :: 0 <= i < |r| ==> '0' <= r[i] <= '9'
    ensures n < 0 ==> r[0] == '-'
  {
    if n < 0 then "-" + NatToString(-n) else NatToString(n)
  }

  function NatToString(n: nat): (r: string)
    ensures r != []
    ensures forall i :: 0 <= i < |r| ==> '0' <= r[i] <= '9'
    ensures |r| > 1 ==> r[0] != '0'
    decreases n
  {
    var d := [(('0' as int) + n % 10) as char];
    if n < 10 then d else NatToString(n / 10) + d
  }

  /** The decimal value of a digit string; inverse of NatToString. */
  function DigitsValue(s: string): int
    decreases |s|
  {
    if s == [] then 0 else 10 * DigitsValue(s[..|s| - 1]) + (s[|s| - 1] as int - '0' as int)
  }

  lemma {:induction false} NatToStringRoundTrip(n: nat)
    ensures DigitsValue(NatToString(n)) == n
    decreases n
  {
    var r := NatToString(n);
    if n >= 10 {
      NatToStringRoundTrip(n / 10);
      assert r[..|r| - 1] == NatToString(n / 10);
    }
  }
}

=== FILE: models.dfy ===
/** The shapes of the rows the post, country and user services query: one
    datatype per Django model, relations as keys (`ForeignKey` to a nullable
    country, `ManyToManyField` of tag keys). */
module Models {

  import opened Wrappers

  datatype Country = Country(id: nat, name: string)

  datatype Tag = Tag(id: nat, name: string)

  /** A post row: `author` is a user key, `tags` the keys of its tags,
      `createdAt` the creation timestamp. */
  datatype Post = Post(
    id: nat,
    title: string,
    body: string,
    author: nat,
    country: Option<Country>,
    tags: set<nat>,
    likes: nat,
    createdAt: int)

  /** A user's three subscription relations, as sets of keys. */
  datatype Subscriptions = Subscriptions(users: set<nat>, countries: set<nat>, tags: set<nat>)

  function CreatedAt(p: Post): int {
    p.createdAt
  }
}

=== FILE: post_serializer.dfy ===
/** `PostSerializer`: the declared fields, the read-only `tags`, and the
    `validate_body` hook that rejects bodies shorter than three characters. */
module PostSerializer {

  import opened Wrappers
  import opened JsonValues
  import opened Fields

  /** `Meta.fields`, in declaration order. */
  const PostFields: seq<string> := ["title", "body", "country", "tags", "images"]

  /** `tags` is output only: input under that key is ignored. */
  const ReadOnlyFields: set<string> := {"tags"}

  const TitleSpec := CharSpec(Some(255), None, false)
  const BodySpec := CharSpec(None, None, false)
  const MinBodyLength: nat := 3
  const ShortBodyMessage: string := "Содержимое поста должно содержать минимум 3 символа."

  /** `PostSerializer.validate_body`. */
  function ValidateBody(value: string): (r: Result<string, Reason>)
    ensures r.Success? <==> |value| >= 3
    ensures r.Success? ==> r.value == value
  {
    if |value| < MinBodyLength then Failure(Custom(ShortBodyMessage)) else Success(value)
  }

  /** The body field: the CharField built from `TextField`, then the hook. */
  function CheckBody(input: Option<Json>): Result<string, seq<Reason>> {
    match ValidateChar(BodySpec, input)
    case Failure(reasons) => Failure(reasons)
    case Success(value) =>
      (match ValidateBody(value)
       case Success(v) => Success(v)
       case Failure(reason) => Failure([reason]))
  }

  /** `images`, a nested serializer over many items: a required list (each item's
      own fields are not modelled). */
  function CheckImages(input: Option<Json>): (r: Result<seq<Json>, seq<Reason>>)
    ensures r.Success? <==> input.Some? && input.value.JArray?
    ensures r.Success? ==> input == Some(JArray(r.value))
    ensures input == None ==> r == Failure([Required])
    ensures input == Some(JNull) ==> r == Failure([Null])
  {
    match input
    case None => Failure([Required])
    case Some(JNull) => Failure([Null])
    case Some(JArray(items)) => Success(items)
    case Some(_) => Failure([NotAList])
  }

  function Errors<T>(field: string, r: Result<T, seq<Reason>>): map<string, seq<Reason>> {
    if r.Failure? then map[field := r.error] else map[]
  }

  /** `PostSerializer(data=...).is_valid()` and its `validated_data`. Only the
      writable declared fields can reach the validated data; `country`
      (optional) and `images` (required) are kept as sent. */
  function ValidatePost(data: map<string, Json>): (r: Result<map<string, Json>, map<string, seq<Reason>>>)
    ensures r.Success? <==>
      && ValidateChar(TitleSpec, Member(data, "title")).Success?
      && CheckBody(Member(data, "body")).Success?
      && CheckImages(Member(data, "images")).Success?
    ensures r.Failure? ==> forall f :: f in r.error ==> f in {"title", "body", "images"}
    ensures r.Failure? ==> ("title" in r.error <==> ValidateChar(TitleSpec, Member(data, "title")).Failure?)
    ensures r.Failure? ==> ("body" in r.error <==> CheckBody(Member(data, "body")).Failure?)
    ensures r.Failure? ==> ("images" in r.error <==> CheckImages(Member(data, "images")).Failure?)
    ensures r.Success? ==> "tags" !in r.value
    ensures r.Success? ==> forall f :: f in r.value ==> f in PostFields && f !in ReadOnlyFields
    ensures r.Success? ==> "body" in r.value && r.value["body"].JString? && |r.value["body"].s| >= 3
    ensures r.Success? ==> "images" in data && data["images"].JArray? && "images" in r.value && r.value["images"] == data["images"]
    ensures r.Success? ==> "title" in r.value && r.value["title"].JString? && Conforms(TitleSpec, r.value["title"].s)
    ensures r.Failure? ==> r.error != map[]
  {
    var title := ValidateChar(TitleSpec, Member(data, "title"));
    var body := CheckBody(Member(data, "body"));
    var images := CheckImages(Member(data, "images"));
    if title.Success? && body.Success? && images.Success? then
      var base := map["title" := JString(title.value), "body" := JString(body.value), "images" := JArray(images.value)];
      Success(if "country" in data then base["country" := data["country"]] else base)
    else
      var errors := Errors("title", title) + Errors("body", body) + Errors("images", images);
      assert title.Failure? ==> "title" in errors;
      assert body.Failure? ==> "body" in errors;
      assert images.Failure? ==> "images" in errors;
      Failure(errors)
  }

  /** With a valid title and images present, a string body is accepted exactly
      when it has at least three characters (and no NUL), and is kept unchanged. */
  lemma BodyDecides(data: map<string, Json>)
    requires "title" in data && data["title"].JString? && Conforms(TitleSpec, data["title"].s)
    requires "images" in data && data["images"].JArray?
    requires "body" in data && data["body"].JString?
    ensures ValidatePost(data).Success? <==> |data["body"].s| >= 3 && '\0' !in data["body"].s
    ensures ValidatePost(data).Success? ==> ValidatePost(data).value["body"] == data["body"]
  {
  }

  /** Tags sent by the client never reach the validated data. */
  lemma InputTagsIgnored(data: map<string, Json>)
    ensures ValidatePost(data) == ValidatePost(map f | f in data && f != "tags" :: data[f])
  {
    var without := map f | f in data && f != "tags" :: data[f];
    assert Member(data, "title") == Member(without, "title");
    assert Member(data, "body") == Member(without, "body");
    assert Member(data, "images") == Member(without, "images");
    assert ("country" in data) == ("country" in without);
  }
}

=== FILE: posts.dfy ===
/** `ListPostService`: the main-page feed. Signed-in users see every post that
    matches one of their subscriptions, once, newest first; anonymous visitors
    see the ten newest posts. */
module Posts {

  import opened Wrappers
  import opened Seqs
  import opened Models

  /** `user.posts`: the posts written by `user`, in table order. */
  function OwnPosts(user: nat, posts: seq<Post>): (r: seq<Post>)
    ensures forall p :: p in r <==> p in posts && p.author == user
  {
    Filter(posts, (p: Post) => p.author == user)
  }

  /** A post matches a subscription when its author is a followed user, its
      country a followed country, or one of its tags a followed tag. */
  predicate InFeed(subscriptions: Subscriptions, p: Post) {
    || p.author in subscriptions.users
    || (p.country.Some? && p.country.value.id in subscriptions.countries)
    || p.tags * subscriptions.tags != {}
  }

  /** `get_main_page_posts_for_authenticated_user`: filter, `.distinct()`,
      `.order_by('-created_at')`. */
  function AuthenticatedFeed(posts: seq<Post>, subscriptions: Subscriptions): (r: seq<Post>)
    ensures forall p :: p in r <==> p in posts && InFeed(subscriptions, p)
    ensures NoDuplicates(r)
    ensures Descending(r, CreatedAt)
  {
    var matching := Filter(posts, (p: Post) => InFeed(subscriptions, p));
    var distinct := Distinct(matching);
    var r := SortDescending(distinct, CreatedAt);
    PermutationKeepsElements(distinct, r);
    r
  }

  /** With no subscription of any kind the feed is empty. */
  lemma NoSubscriptionsNoFeed(posts: seq<Post>)
    ensures AuthenticatedFeed(posts, Subscriptions({}, {}, {})) == []
  {
    FilterNone(posts, (p: Post) => InFeed(Subscriptions({}, {}, {}), p));
  }

  /** Posts without duplicates lose none to `.distinct()`. */
  lemma UniqueKeepsLength(posts: seq<Post>)
    ensures NoDuplicates(posts) ==> |Distinct(posts)| == |posts|
  {
    if NoDuplicates(posts) {
      DistinctOfUnique(posts);
    }
  }

  /** The `k` newest distinct posts, newest first: newest-first ordering, then a slice. */
  function Newest(posts: seq<Post>, k: nat): (r: seq<Post>)
    ensures |r| <= k
    ensures forall p :: p in r ==> p in posts
    ensures NoDuplicates(r)
    ensures Descending(r, CreatedAt)
    ensures forall p, q :: p in r && q in posts && q !in r ==> p.createdAt >= q.createdAt
    ensures |r| < k ==> forall q :: q in posts ==> q in r
    ensures NoDuplicates(posts) ==> |r| == Min(k, |posts|)
  {
    var distinct := Distinct(posts);
    UniqueKeepsLength(posts);
    var sorted := SortDescending(distinct, CreatedAt);
    PermutationKeepsElements(distinct, sorted);
    TakeOfDescendingIsTop(sorted, k, CreatedAt);
    var r := Take(sorted, k);
    TakeUnique(sorted, k);
    assert |r| < k ==> r == sorted;
    r
  }

  /** `get_main_page_posts_for_unauthenticated_user`: the ten newest posts. */
  function AnonymousFeed(posts: seq<Post>): (r: seq<Post>)
    ensures |r| <= 10
    ensures NoDuplicates(posts) ==> |r| == Min(10, |posts|)
    ensures forall p :: p in r ==> p in posts
    ensures NoDuplicates(r)
    ensures Descending(r, CreatedAt)
    ensures forall p, q :: p in r && q in posts && q !in r ==> p.createdAt >= q.createdAt
    ensures |r| < 10 ==> forall q :: q in posts ==> q in r
  {
    Newest(posts, 10)
  }
}

=== FILE: request_service.dfy ===
/** The generic outbound client `ServiceRequest`: joins the endpoint onto the
    client's base URL, hands the request to the transport and sorts the answer
    into "returned", `ClientNotFoundError`, `HubServerError` or the HTTP error of
    `raise_for_status()`. The transport (`requests.request`) is a parameter. */
module RequestService {

  import opened Wrappers
  import opened JsonValues
  import opened Failures

  /** `BaseRequest.GET` and `BaseRequest.POST`. */
  datatype Method = Get | Post

  datatype Request = Request(verb: Method, url: string, headers: map<string, string>, params: map<string, string>)

  /** What the client observes of a response: the status code and the body
      decoded as JSON, None when the body is not JSON. */
  datatype Response = Response(status: int, body: Option<Json>)

  /** The transport either delivers a response or raises (connection refused,
      DNS failure, ...). */
  datatype Transport = Delivered(response: Response) | TransportFailed(reason: string)

  /** `rest_framework.status.is_client_error` */
  predicate IsClientError(code: int) {
    400 <= code <= 499
  }

  /** `rest_framework.status.is_server_error` */
  predicate IsServerError(code: int) {
    500 <= code <= 599
  }

  // ---------------------------------------------------------------- URL join

  predicate IsAlpha(c: char) {
    'a' <= c <= 'z' || 'A' <= c <= 'Z'
  }

  predicate IsSchemeChar(c: char) {
    IsAlpha(c) || '0' <= c <= '9' || c == '+' || c == '-' || c == '.'
  }

  /** Index of the first `c` at or after `from`, or `|s|` when there is none. */
  function IndexOf(s: string, c: char, from: nat): (i: nat)
    requires from <= |s|
    ensures from <= i <= |s|
    ensures i < |s| ==> s[i] == c
    ensures forall k :: from <= k < i ==> s[k] != c
    decreases |s| - from
  {
    if from == |s| || s[from] == c then from else IndexOf(s, c, from + 1)
  }

  /** Index of the last '/', or -1 when there is none. */
  function LastSlash(s: string): (i: int)
    ensures -1 <= i < |s|
    ensures i >= 0 ==> s[i] == '/'
    ensures forall k :: i < k < |s| ==> s[k] != '/'
  {
    if s == [] then -1
    else if s[|s| - 1] == '/' then |s| - 1
    else LastSlash(s[..|s| - 1])
  }

  /** Length of the scheme `urlsplit` recognises: the characters before the
      first ':' when they start with a letter and are all scheme characters;
      0 when there is no scheme. */
  function SchemeLength(s: string): (n: nat)
    ensures n < |s| || n == 0
    ensures n > 0 ==> s[n] == ':'
  {
    var i := IndexOf(s, ':', 0);
    if 0 < i < |s| && IsAlpha(s[0]) && forall k :: 0 <= k < i ==> IsSchemeChar(s[k]) then i else 0
  }

  predicate HasScheme(s: string) {
    SchemeLength(s) > 0
  }

  /** Length of the `scheme://authority` prefix of a base URL, 0 without one. */
  function OriginLength(base: string): (n: nat)
    ensures n <= |base|
    ensures n < |base| ==> n == 0 || base[n] == '/'
  {
    var k := SchemeLength(base);
    if k > 0 && k + 3 <= |base| && base[k..k + 3] == "://" then IndexOf(base, '/', k + 3) else 0
  }

  /** `urllib.parse.urljoin(base, ref)` for the references this system builds:
      an absolute reference replaces the base, a rooted one keeps the base's
      origin, a relative one replaces the base's last path segment. */
  function UrlJoin(base: string, ref: string): string {
    if base == "" then ref
    else if ref == "" then base
    else if HasScheme(ref) then ref
    else if |ref| >= 2 && ref[..2] == "//" then
      (if HasScheme(base) then base[..SchemeLength(base) + 1] + ref else ref)
    else if ref[0] == '/' then base[..OriginLength(base)] + ref
    else MergePath(base, ref)
  }

  /** A relative path reference replaces everything after the base path's last '/'. */
  function MergePath(base: string, ref: string): string {
    var o := OriginLength(base);
    if o > 0 && o == |base| then base + "/" + ref
    else base[..o] + Directory(base[o..]) + ref
  }

  /** A path up to and including its last '/'. */
  function Directory(path: string): string {
    path[..LastSlash(path) + 1]
  }

  /** A base ending in '/' that is more than a bare `scheme://` has a path. */
  lemma BaseWithPath(base: string)
    requires base != "" && base[|base| - 1] == '/'
    requires |base| < 3 || base[|base| - 3..] != "://"
    ensures OriginLength(base) < |base|
  {
    var k := SchemeLength(base);
    if k > 0 && k + 3 <= |base| && base[k..k + 3] == "://" {
      var tail := base[|base| - 3..];
      assert tail != "://";
      assert IndexOf(base, '/', k + 3) < |base|;
    }
  }

  /** A path with no empty, `.` or `..` segment between its slashes. `urljoin`
      drops interior empty segments and resolves dot segments (section 5.2.4
      of RFC 3986); on such paths it has nothing to do. */
  predicate PlainPath(path: string) {
    && (forall i :: 0 <= i < |path| - 1 ==> !(path[i] == '/' && path[i + 1] == '/'))
    && (forall i :: 0 <= i < |path| && path[i] == '.' && (i == 0 || path[i - 1] == '/') ==>
          && i + 1 < |path| && path[i + 1] != '/'
          && (path[i + 1] == '.' ==> i + 2 < |path| && path[i + 2] != '/'))
  }

  /** Characters `urlsplit` treats specially inside a URL: it splits off
      `;params`, `?query` and `#fragment` and deletes tab, CR and LF. */
  predicate IsSplitChar(c: char) {
    c == ';' || c == '?' || c == '#' || c == '\t' || c == '\r' || c == '\n'
  }

  /** A relative reference `urljoin` appends as it is: a plain path with no
      character `urlsplit` would split off or delete. */
  predicate PlainReference(ref: string) {
    && PlainPath(ref)
    && forall i :: 0 <= i < |ref| ==> !IsSplitChar(ref[i])
  }

  /** A base URL `urljoin` keeps as it is: a lower-case `http` or `https`
      scheme (one `urljoin` resolves against), no params, query, fragment,
      bracketed host or deleted character, and a plain path. */
  predicate PlainBase(base: string) {
    && ((|base| >= 7 && base[..7] == "http://") || (|base| >= 8 && base[..8] == "https://"))
    && (forall i :: 0 <= i < |base| ==> !IsSplitChar(base[i]) && base[i] != '[' && base[i] != ']')
    && PlainPath(base[OriginLength(base)..])
  }

  /** Merging onto a base whose path ends in '/' keeps the whole base. */
  lemma MergeOntoDirectory(base: string, ref: string)
    requires base != "" && base[|base| - 1] == '/'
    requires |base| < 3 || base[|base| - 3..] != "://"
    ensures MergePath(base, ref) == base + ref
  {
    BaseWithPath(base);
    var o := OriginLength(base);
    DirectoryAtEnd(base[o..]);
    assert base[..o] + base[o..] == base;
  }

  /** A path ending in '/' is its own directory. */
  lemma DirectoryAtEnd(path: string)
    requires path != "" && path[|path| - 1] == '/'
    ensures Directory(path) == path
  {
    assert LastSlash(path) == |path| - 1;
  }

  /** A base ending in '/' is kept whole and the relative reference appended
      verbatim: the endpoint is neither escaped nor normalised. */
  lemma JoinOntoDirectory(base: string, ref: string)
    requires base != "" && base[|base| - 1] == '/'
    requires |base| < 3 || base[|base| - 3..] != "://"
    requires PlainBase(base)
    requires ref != "" && ref[0] != '/' && !HasScheme(ref) && PlainReference(ref)
    ensures UrlJoin(base, ref) == base + ref
  {
    assert !(|ref| >= 2 && ref[..2] == "//") by {
      assert |ref| >= 2 ==> ref[..2][0] == ref[0];
    }
    MergeOntoDirectory(base, ref);
  }

  // ---------------------------------------------------------- classification

  /** The status-code classification of `ServiceRequest._make_request`. */
  function Classify(response: Response): (r: Result<Response, Failure>)
    ensures r.Success? <==> !IsClientError(response.status) && !IsServerError(response.status)
    ensures r.Success? ==> r.value == response
    ensures r == Failure(HubServerError) <==> IsServerError(response.status)
    ensures (r.Failure? && r.error.ClientNotFoundError?) <==>
      IsClientError(response.status) && response.body.Some? && response.body.value.JObject?
    ensures r.Failure? && r.error.ClientNotFoundError? ==>
      r.error.detail == DictGet(response.body.value.fields, "message")
    ensures (r.Failure? && r.error.HttpError?) <==> IsClientError(response.status) && response.body.None?
    ensures r.Failure? && r.error.HttpError? ==> r.error.status == response.status
    ensures (r.Failure? && r.error.AttributeError?) <==>
      IsClientError(response.status) && response.body.Some? && !response.body.value.JObject?
    ensures r.Failure? ==>
      r.error.ClientNotFoundError? || r.error.HubServerError? || r.error.HttpError? || r.error.AttributeError?
  {
    if IsClientError(response.status) then
      match response.body
      case None => Failure(HttpError(response.status))
      case Some(decoded) =>
        if decoded.JObject? then Failure(ClientNotFoundError(DictGet(decoded.fields, "message")))
        else Failure(AttributeError)
    else if IsServerError(response.status) then
      Failure(HubServerError)
    else
      Success(response)
  }

  /** The request `_make_request(endpoint, verb, headers=..., params=...)` sends. */
  function OutgoingRequest(baseUrl: string, endpoint: string, verb: Method,
                           headers: map<string, string>, params: map<string, string>): (req: Request)
    ensures req.url == UrlJoin(baseUrl, endpoint)
    ensures req.verb == verb && req.headers == headers && req.params == params
  {
    Request(verb, UrlJoin(baseUrl, endpoint), headers, params)
  }

  /** `ServiceRequest._make_request`: one call of the transport, then the
      classification; a transport exception propagates unchanged. */
  function MakeRequest(baseUrl: string, endpoint: string, verb: Method,
                       headers: map<string, string>, params: map<string, string>,
                       send: Request -> Transport): (r: Result<Response, Failure>)
    ensures send(OutgoingRequest(baseUrl, endpoint, verb, headers, params)).TransportFailed? ==>
      r == Failure(TransportError(send(OutgoingRequest(baseUrl, endpoint, verb, headers, params)).reason))
    ensures send(OutgoingRequest(baseUrl, endpoint, verb, headers, params)).Delivered? ==>
      r == Classify(send(OutgoingRequest(baseUrl, endpoint, verb, headers, params)).response)
  {
    match send(OutgoingRequest(baseUrl, endpoint, verb, headers, params))
    case TransportFailed(reason) => Failure(TransportError(reason))
    case Delivered(response) => Classify(response)
  }

  /** A 4xx JSON object without `message` fails with the class's default detail. */
  lemma ClientErrorWithoutMessage(response: Response)
    requires IsClientError(response.status)
    requires response.body.Some? && response.body.value.JObject?
    requires "message" !in response.body.value.fields
    ensures Classify(response) == Failure(ClientNotFoundError(JNull))
    ensures IntegrationDetail(Classify(response).error) == JString(ClientNotFoundDefaultDetail)
  {
  }

  /** A server error reports HTTP 400 and the fixed detail, whatever the body. */
  lemma ServerErrorHidesUpstream(response: Response)
    requires IsServerError(response.status)
    ensures Classify(response).Failure?
    ensures StatusCode(Classify(response).error) == 400
    ensures IntegrationDetail(Classify(response).error) == JString(HubServerDefaultDetail)
  {
  }
}

=== FILE: seqs.dfy ===
/** Sequence operations standing in for the query-set operators the services
    chain together: `filter`, `distinct`, `order_by('-key')` and slicing. */
module Seqs {

  predicate NoDuplicates<T(==)>(s: seq<T>) {
    forall i, j :: 0 <= i < j < |s| ==> s[i] != s[j]
  }

  /** Non-increasing in `key`: the order of `order_by('-key')`. */
  predicate Descending<T>(s: seq<T>, key: T -> int) {
    forall i, j :: 0 <= i < j < |s| ==> key(s[i]) >= key(s[j])
  }

  /** The elements satisfying `keep`, in their original order. */
  function Filter<T(!new)>(s: seq<T>, keep: T -> bool): (r: seq<T>)
    ensures |r| <= |s|
    ensures forall x :: x in r <==> x in s && keep(x)
    ensures forall i :: 0 <= i < |r| ==> keep(r[i])
  {
    if s == [] then []
    else (if keep(s[0]) then [s[0]] else []) + Filter(s[1..], keep)
  }

  /** Nothing is kept when no element qualifies. */
  lemma {:induction false} FilterNone<T(!new)>(s: seq<T>, keep: T -> bool)
    requires forall i :: 0 <= i < |s| ==> !keep(s[i])
    ensures Filter(s, keep) == []
  {
    if s != [] {
      FilterNone(s[1..], keep);
    }
  }

  /** Filtering distributes over appending one element at the end. */
  lemma {:induction false} FilterSnoc<T(!new)>(s: seq<T>, x: T, keep: T -> bool)
    ensures Filter(s + [x], keep) == Filter(s, keep) + (if keep(x) then [x] else [])
    decreases |s|
  {
    if s == [] {
      assert [x][1..] == [];
    } else {
      assert (s + [x])[1..] == s[1..] + [x];
      FilterSnoc(s[1..], x, keep);
    }
  }

  /** `r` is `s` with some elements left out, the rest in their original order. */
  predicate IsSubsequence<T(==)>(r: seq<T>, s: seq<T>)
    decreases |s|
  {
    r == [] || (s != [] && (if r[0] == s[0] then IsSubsequence(r[1..], s[1..]) else IsSubsequence(r, s[1..])))
  }

  /** Filtering only drops elements: what is kept keeps its order and its
      multiplicity never grows. */
  lemma FilterKeepsOrder<T(!new)>(s: seq<T>, keep: T -> bool)
    ensures IsSubsequence(Filter(s, keep), s)
    ensures multiset(Filter(s, keep)) <= multiset(s)
  {
    FilterIsSubsequence(s, keep);
    FilterMultiset(s, keep);
  }

  lemma {:induction false} FilterIsSubsequence<T(!new)>(s: seq<T>, keep: T -> bool)
    ensures IsSubsequence(Filter(s, keep), s)
  {
    if s != [] {
      var rest := Filter(s[1..], keep);
      FilterIsSubsequence(s[1..], keep);
      if keep(s[0]) {
        var r := [s[0]] + rest;
        assert Filter(s, keep) == r;
        assert r[1..] == rest;
      } else {
        assert Filter(s, keep) == rest;
        if rest != [] {
          assert keep(rest[0]);
        }
      }
    }
  }

  lemma {:induction false} FilterMultiset<T(!new)>(s: seq<T>, keep: T -> bool)
    ensures multiset(Filter(s, keep)) <= multiset(s)
  {
    if s != [] {
      var rest := Filter(s[1..], keep);
      FilterMultiset(s[1..], keep);
      assert s == [s[0]] + s[1..];
      assert multiset(s) == multiset{s[0]} + multiset(s[1..]);
      if keep(s[0]) {
        assert Filter(s, keep) == [s[0]] + rest;
        assert multiset(Filter(s, keep)) == multiset{s[0]} + multiset(rest);
      } else {
        assert Filter(s, keep) == rest;
      }
    }
  }

  /** `.distinct()`: the first occurrence of every element, order kept. */
  function Distinct<T(==,!new)>(s: seq<T>): (r: seq<T>)
    ensures NoDuplicates(r)
    ensures forall x :: x in r <==> x in s
    ensures |r| <= |s|
    decreases |s|
  {
    if s == [] then []
    else
      var rest := Distinct(s[..|s| - 1]);
      var last := s[|s| - 1];
      assert forall x :: x in s <==> x in s[..|s| - 1] || x == last;
      if last in rest then rest else rest + [last]
  }

  /** Appending an element extends the distinct elements only when it is new. */
  lemma DistinctSnoc<T(!new)>(s: seq<T>, x: T)
    ensures Distinct(s + [x]) == if x in Distinct(s) then Distinct(s) else Distinct(s) + [x]
  {
    assert (s + [x])[..|s|] == s;
  }

  /** A sequence without duplicates is its own `.distinct()`. */
  lemma {:induction false} DistinctOfUnique<T(!new)>(s: seq<T>)
    requires NoDuplicates(s)
    ensures Distinct(s) == s
    decreases |s|
  {
    if s != [] {
      var init := s[..|s| - 1];
      var last := s[|s| - 1];
      assert NoDuplicates(init) by {
        forall i, j | 0 <= i < j < |init|
          ensures init[i] != init[j]
        {
          assert init[i] == s[i] && init[j] == s[j];
        }
      }
      DistinctOfUnique(init);
      assert last !in init by {
        forall i | 0 <= i < |init|
          ensures init[i] != last
        {
          assert init[i] == s[i];
        }
      }
      assert init + [last] == s;
    }
  }

  /** Inserts `x` in front of the first element whose key does not exceed its own. */
  function Insert<T>(x: T, s: seq<T>, key: T -> int): (r: seq<T>)
    ensures |r| == |s| + 1
  {
    if s == [] then [x]
    else if key(s[0]) <= key(x) then [x] + s
    else [s[0]] + Insert(x, s[1..], key)
  }

  /** Insertion adds exactly one element. */
  lemma {:induction false} InsertPermutes<T>(x: T, s: seq<T>, key: T -> int)
    ensures multiset(Insert(x, s, key)) == multiset(s) + multiset{x}
  {
    if s != [] && key(s[0]) > key(x) {
      var tail := Insert(x, s[1..], key);
      InsertPermutes(x, s[1..], key);
      calc {
        multiset(Insert(x, s, key));
        multiset([s[0]] + tail);
        multiset([s[0]]) + multiset(tail);
        multiset([s[0]]) + multiset(s[1..]) + multiset{x};
        { assert s == [s[0]] + s[1..]; }
        multiset(s) + multiset{x};
      }
    }
  }

  /** Insertion into a non-increasing sequence keeps it non-increasing, and
      the first element is `x` or the old first element. */
  lemma {:induction false} InsertSorted<T>(x: T, s: seq<T>, key: T -> int)
    requires Descending(s, key)
    ensures Descending(Insert(x, s, key), key)
    ensures Insert(x, s, key)[0] == x || (s != [] && Insert(x, s, key)[0] == s[0])
  {
    if s != [] && key(s[0]) > key(x) {
      var tail := Insert(x, s[1..], key);
      InsertSorted(x, s[1..], key);
      assert key(tail[0]) <= key(s[0]);
      var r := [s[0]] + tail;
      forall i, j | 0 <= i < j < |r|
        ensures key(r[i]) >= key(r[j])
      {
        if i == 0 {
          assert r[j] == tail[j - 1];
        } else {
          assert r[i] == tail[i - 1] && r[j] == tail[j - 1];
        }
      }
    }
  }

  /** Insertion sort into non-increasing key order: a permutation of `s`. */
  function SortDescending<T>(s: seq<T>, key: T -> int): (r: seq<T>)
    ensures Descending(r, key)
    ensures multiset(r) == multiset(s)
    ensures |r| == |s|
  {
    if s == [] then []
    else
      var rest := SortDescending(s[1..], key);
      InsertSorted(s[0], rest, key);
      InsertPermutes(s[0], rest, key);
      assert multiset(s) == multiset(s[1..]) + multiset{s[0]} by {
        assert s == [s[0]] + s[1..];
      }
      Insert(s[0], rest, key)
  }

  function Min(a: int, b: int): int {
    if a <= b then a else b
  }

  /** The slice `[:k]`. */
  function Take<T>(s: seq<T>, k: nat): (r: seq<T>)
    ensures |r| == Min(k, |s|)
    ensures forall i :: 0 <= i < |r| ==> r[i] == s[i]
  {
    if |s| <= k then s else s[..k]
  }

  /** A prefix of a sequence without duplicates has none either. */
  lemma TakeUnique<T>(s: seq<T>, k: nat)
    ensures NoDuplicates(s) ==> NoDuplicates(Take(s, k))
  {
    var t := Take(s, k);
    assert forall i :: 0 <= i < |t| ==> t[i] == s[i];
  }

  /** The first `k` elements of a non-increasing sequence are the top `k`: every
      element left out has a key no greater than any element kept. */
  lemma {:induction false} TakeOfDescendingIsTop<T>(s: seq<T>, k: nat, key: T -> int)
    requires Descending(s, key)
    ensures Descending(Take(s, k), key)
    ensures forall x, y :: x in Take(s, k) && y in s && y !in Take(s, k) ==> key(x) >= key(y)
  {
    var t := Take(s, k);
    forall x, y | x in t && y in s && y !in t
      ensures key(x) >= key(y)
    {
      var i :| 0 <= i < |t| && t[i] == x;
      var j :| 0 <= j < |s| && s[j] == y;
      assert forall m :: 0 <= m < |t| ==> s[m] == t[m] != y;
      assert i < j;
    }
  }

  /** A permutation keeps the element set and, with no duplicates before, none after. */
  lemma PermutationKeepsElements<T>(a: seq<T>, b: seq<T>)
    requires multiset(a) == multiset(b)
    ensures forall x :: x in a <==> x in b
    ensures NoDuplicates(a) ==> NoDuplicates(b)
  {
    forall x
      ensures x in a <==> x in b
    {
      assert x in a <==> x in multiset(a);
      assert x in b <==> x in multiset(b);
    }
    if NoDuplicates(a) {
      NoDuplicatesMultiplicity(a);
      forall i, j | 0 <= i < j < |b|
        ensures b[i] != b[j]
      {
        TwoOccurrences(b, i, j);
        assert multiset(a)[b[i]] <= 1;
      }
    }
  }

  lemma {:induction false} NoDuplicatesMultiplicity<T>(s: seq<T>)
    requires NoDuplicates(s)
    ensures forall x :: multiset(s)[x] <= 1
  {
    if s != [] {
      var init := s[..|s| - 1];
      var last := s[|s| - 1];
      assert s == init + [last];
      NoDuplicatesMultiplicity(init);
      assert last !in init by {
        forall i | 0 <= i < |init|
          ensures init[i] != last
        {
          assert init[i] == s[i];
        }
      }
      assert multiset(s) == multiset(init) + multiset{last};
    }
  }

  lemma TwoOccurrences<T>(s: seq<T>, i: nat, j: nat)
    requires i < j < |s|
    ensures s[i] == s[j] ==> multiset(s)[s[i]] >= 2
  {
    assert s == s[..i] + [s[i]] + s[i + 1..j] + [s[j]] + s[j + 1..];
    assert multiset(s) == multiset(s[..i]) + multiset{s[i]} + multiset(s[i + 1..j]) + multiset{s[j]} + multiset(s[j + 1..]);
  }

  /** Sum of `f` over the elements: SQL `SUM` / `COUNT` over a join. */
  function SumOf<T>(s: seq<T>, f: T -> nat): nat {
    if s == [] then 0 else f(s[0]) + SumOf(s[1..], f)
  }
}

=== FILE: user_manager.dfy ===
/** `UserManager`: users are keyed by email; `create_user` and
    `create_superuser` fill in the permission flags before the shared
    `_create_user` checks the email and stores the hashed password. The
    password hasher is a parameter; saving to the database is not modelled,
    the attributes handed to the model are. */
module UserManager {

  import opened Wrappers
  import opened JsonValues
  import opened Failures

  /** The keyword arguments given to the model constructor. */
  type Attributes = map<string, Json>

  const MissingEmail: string := "The given value must be set"
  const StaffRequired: string := "Superuser must have is_staff=True."
  const SuperuserRequired: string := "Superuser must have is_superuser=True."

  /** `extra_fields.setdefault(key, value)`. */
  function SetDefault(fields: Attributes, key: string, value: Json): (r: Attributes)
    ensures key in r && r[key] == (if key in fields then fields[key] else value)
    ensures forall k :: k != key ==> (k in r <==> k in fields)
    ensures forall k :: k in fields && k != key ==> r[k] == fields[k]
  {
    if key in fields then fields else fields[key := value]
  }

  /** `_create_user`: an empty or missing email is refused; otherwise the
      extra fields, the email, and the hashed password. `email` and `password`
      are named parameters, so the extra fields cannot carry them. */
  function CreateUserBase(email: Json, password: string, extra: Attributes, hash: string -> string): (r: Result<Attributes, Failure>)
    requires "email" !in extra && "password" !in extra
    ensures r.Failure? <==> !Truthy(email)
    ensures r.Failure? ==> r.error == ValueError(MissingEmail)
    ensures r.Success? ==> r.value.Keys == extra.Keys + {"email", "password"}
    ensures r.Success? ==> r.value["email"] == email && r.value["password"] == JString(hash(password))
    ensures r.Success? ==> forall k :: k in extra ==> r.value[k] == extra[k]
  {
    if !Truthy(email) then Failure(ValueError(MissingEmail))
    else Success(extra["email" := email]["password" := JString(hash(password))])
  }

  /** `create_user`: not staff and not superuser unless the caller says otherwise. */
  function CreateUser(email: Json, password: string, extra: Attributes, hash: string -> string): (r: Result<Attributes, Failure>)
    requires "email" !in extra && "password" !in extra
    ensures r.Failure? <==> !Truthy(email)
    ensures r.Success? ==> r.value.Keys == extra.Keys + {"email", "password", "is_staff", "is_superuser"}
    ensures r.Success? ==> r.value["is_staff"] == (if "is_staff" in extra then extra["is_staff"] else JBool(false))
    ensures r.Success? ==> r.value["is_superuser"] == (if "is_superuser" in extra then extra["is_superuser"] else JBool(false))
    ensures r.Success? ==> r.value["password"] == JString(hash(password))
  {
    var fields := SetDefault(SetDefault(extra, "is_staff", JBool(false)), "is_superuser", JBool(false));
    CreateUserBase(email, password, fields, hash)
  }

  /** `create_superuser`: both flags default to true and must end up exactly
      `True` (checked before the email); `is_active` defaults to true. */
  function CreateSuperuser(email: Json, password: string, extra: Attributes, hash: string -> string): (r: Result<Attributes, Failure>)
    requires "email" !in extra && "password" !in extra
    ensures r.Success? <==>
      && Truthy(email)
      && ("is_staff" in extra ==> extra["is_staff"] == JBool(true))
      && ("is_superuser" in extra ==> extra["is_superuser"] == JBool(true))
    ensures "is_staff" in extra && extra["is_staff"] != JBool(true) ==> r == Failure(ValueError(StaffRequired))
    ensures (("is_staff" in extra ==> extra["is_staff"] == JBool(true))
             && "is_superuser" in extra && extra["is_superuser"] != JBool(true))
      ==> r == Failure(ValueError(SuperuserRequired))
    ensures r.Success? ==> r.value.Keys == extra.Keys + {"email", "password", "is_staff", "is_superuser", "is_active"}
    ensures r.Success? ==> r.value["is_staff"] == JBool(true) && r.value["is_superuser"] == JBool(true)
    ensures r.Success? ==> r.value["is_active"] == (if "is_active" in extra then extra["is_active"] else JBool(true))
  {
    var fields := SetDefault(SetDefault(SetDefault(extra, "is_staff", JBool(true)), "is_superuser", JBool(true)), "is_active", JBool(true));
    if DictGet(fields, "is_staff") != JBool(true) then Failure(ValueError(StaffRequired))
    else if DictGet(fields, "is_superuser") != JBool(true) then Failure(ValueError(SuperuserRequired))
    else CreateUserBase(email, password, fields, hash)
  }

  /** A plain user created without flags has neither; a superuser created
      without flags has both. */
  lemma FlagDefaults(email: Json, password: string, hash: string -> string)
    requires Truthy(email)
    ensures CreateUser(email, password, map[], hash).Success?
    ensures CreateUser(email, password, map[], hash).value["is_staff"] == JBool(false)
    ensures CreateUser(email, password, map[], hash).value["is_superuser"] == JBool(false)
    ensures CreateSuperuser(email, password, map[], hash).Success?
    ensures CreateSuperuser(email, password, map[], hash).value["is_staff"] == JBool(true)
    ensures CreateSuperuser(email, password, map[], hash).value["is_superuser"] == JBool(true)
  {
  }

  /** A flag that is merely truthy (`1`, `"yes"`) is still refused: the
      check is `is not True`. */
  lemma TruthyFlagIsNotTrue(email: Json, password: string, hash: string -> string)
    ensures CreateSuperuser(email, password, map["is_staff" := JNumber(1)], hash) == Failure(ValueError(StaffRequired))
  {
  }
}

=== FILE: user_serializers.dfy ===
/** `UserRegistrationSerializer` (field checks, then the password match) and
    `UserDetailSerializer.get_posts_by_country` (the user's posts grouped by
    country name, groups in order of first appearance). */
module UserSerializers {

  import opened Wrappers
  import opened JsonValues
  import opened Fields
  import opened Failures
  import opened Models
  import opened Seqs
  import opened Posts

  // ------------------------------------------------------------ registration

  const PasswordSpec := CharSpec(None, Some(9), false)
  const UsernameSpec := CharSpec(Some(150), None, false)
  const EmailSpec := CharSpec(Some(254), None, false)
  /** `first_name` / `last_name`: `max_length=30, blank=True, null=True`. */
  const NameSpec := CharSpec(Some(30), None, true)
  const PasswordMismatch: string := "Пароли не совпадают."

  /** The validated registration data; an absent or null name is `None`. */
  datatype Registration = Registration(
    email: string,
    username: string,
    firstName: Option<string>,
    lastName: Option<string>,
    password: string,
    password2: string)

  /** A CharField that is neither required nor non-null. */
  function ValidateOptionalChar(spec: CharSpec, input: Option<Json>): (r: Result<Option<string>, seq<Reason>>)
    ensures input == None || input == Some(JNull) ==> r == Success(None)
    ensures r.Success? && r.value.Some? ==> Conforms(spec, r.value.value)
    ensures forall s :: input == Some(JString(s)) ==> (r.Success? <==> Conforms(spec, s)) && (r.Success? ==> r.value == Some(s))
    ensures r.Failure? ==> r.error != []
  {
    if input == None || input == Some(JNull) then Success(None)
    else
      match ValidateChar(spec, input)
      case Success(s) => Success(Some(s))
      case Failure(reasons) => Failure(reasons)
  }

  function Errors<T>(field: string, r: Result<T, seq<Reason>>): map<string, seq<Reason>> {
    if r.Failure? then map[field := r.error] else map[]
  }

  /** Every field passes its own checks (DRF runs `validate` only then). */
  predicate FieldsPass(data: map<string, Json>) {
    && ValidateChar(EmailSpec, Member(data, "email")).Success?
    && ValidateChar(UsernameSpec, Member(data, "username")).Success?
    && ValidateOptionalChar(NameSpec, Member(data, "first_name")).Success?
    && ValidateOptionalChar(NameSpec, Member(data, "last_name")).Success?
    && ValidateChar(PasswordSpec, Member(data, "password")).Success?
    && ValidateChar(PasswordSpec, Member(data, "password2")).Success?
  }

  /** `UserRegistrationSerializer(data=...).is_valid()`: field errors by field
      name; only when there are none, the two passwords are compared. */
  function ValidateRegistration(data: map<string, Json>): (r: Result<Registration, ValidationDetail>)
    ensures r.Success? <==> FieldsPass(data) && AsText(data["password"]) == AsText(data["password2"])
    ensures r.Success? ==> r.value.password == r.value.password2 && |r.value.password| >= 9
    ensures r.Success? ==> AsText(data["password"]) == Some(r.value.password)
    ensures r.Failure? && r.error.Message? ==> FieldsPass(data) && r.error.text == PasswordMismatch
    ensures r.Failure? && !FieldsPass(data) ==> r.error.SerializerErrors? && r.error.fields != map[]
  {
    var email := ValidateChar(EmailSpec, Member(data, "email"));
    var username := ValidateChar(UsernameSpec, Member(data, "username"));
    var first := ValidateOptionalChar(NameSpec, Member(data, "first_name"));
    var last := ValidateOptionalChar(NameSpec, Member(data, "last_name"));
    var password := ValidateChar(PasswordSpec, Member(data, "password"));
    var password2 := ValidateChar(PasswordSpec, Member(data, "password2"));
    if email.Success? && username.Success? && first.Success? && last.Success? && password.Success? && password2.Success? then
      if password.value != password2.value then Failure(Message(PasswordMismatch))
      else Success(Registration(email.value, username.value, first.value, last.value, password.value, password2.value))
    else
      var errors := Errors("email", email) + Errors("username", username)
        + Errors("first_name", first) + Errors("last_name", last)
        + Errors("password", password) + Errors("password2", password2);
      assert password.Failure? ==> "password" in errors;
      assert password2.Failure? ==> "password2" in errors;
      assert email.Failure? ==> "email" in errors;
      assert username.Failure? ==> "username" in errors;
      assert first.Failure? ==> "first_name" in errors;
      assert last.Failure? ==> "last_name" in errors;
      Failure(SerializerErrors(errors))
  }

  /** A password shorter than nine characters is reported under its own field
      with the `min_length` error, and the passwords are not compared. */
  lemma ShortPasswordRejected(data: map<string, Json>)
    requires "password" in data && data["password"].JString?
    requires 0 < |data["password"].s| < 9
    ensures ValidateRegistration(data).Failure?
    ensures ValidateRegistration(data).error.SerializerErrors?
    ensures "password" in ValidateRegistration(data).error.fields
    ensures MinLength(9) in ValidateRegistration(data).error.fields["password"]
  {
    var reasons := ValidatorReasons(PasswordSpec, data["password"].s);
    assert reasons[0] == MinLength(9);
  }

  /** Two valid but different passwords give exactly the mismatch message. */
  lemma MismatchReported(data: map<string, Json>)
    requires FieldsPass(data)
    ensures ValidateRegistration(data).Failure? <==> AsText(data["password"]) != AsText(data["password2"])
    ensures ValidateRegistration(data).Failure? ==> ValidateRegistration(data) == Failure(Message(PasswordMismatch))
  {
  }

  // ------------------------------------------------------------ posts by country

  const NoCountry: string := "Без страны"

  /** The group a post goes to: its country's name, or the placeholder. */
  function GroupName(p: Post): string {
    if p.country.Some? then p.country.value.name else NoCountry
  }

  /** The group names of the posts, one per post, in order. */
  function Names(posts: seq<Post>): (r: seq<string>)
    ensures |r| == |posts|
    ensures forall i :: 0 <= i < |posts| ==> r[i] == GroupName(posts[i])
  {
    seq(|posts|, i requires 0 <= i < |posts| => GroupName(posts[i]))
  }

  /** The posts of one group, in their original order. */
  function Members(posts: seq<Post>, name: string): seq<Post> {
    Filter(posts, (p: Post) => GroupName(p) == name)
  }

  type Groups = seq<(string, seq<Post>)>

  function Keys(groups: Groups): seq<string> {
    if groups == [] then [] else [groups[0].0] + Keys(groups[1..])
  }

  function TotalSize(groups: Groups): nat {
    if groups == [] then 0 else |groups[0].1| + TotalSize(groups[1..])
  }

  /** One loop step: `grouped_posts.setdefault(name, []).append(post)` on a
      dict that keeps insertion order. */
  function AddToGroup(groups: Groups, name: string, p: Post): (r: Groups)
    ensures |r| == if name in Keys(groups) then |groups| else |groups| + 1
  {
    if groups == [] then [(name, [p])]
    else if groups[0].0 == name then [(name, groups[0].1 + [p])] + groups[1..]
    else [groups[0]] + AddToGroup(groups[1..], name, p)
  }

  /** A step adds a key only when the name is new, at the end. */
  lemma {:induction false} AddToGroupKeys(groups: Groups, name: string, p: Post)
    ensures Keys(AddToGroup(groups, name, p)) == if name in Keys(groups) then Keys(groups) else Keys(groups) + [name]
  {
    if groups != [] && groups[0].0 != name {
      AddToGroupKeys(groups[1..], name, p);
      var r := AddToGroup(groups, name, p);
      assert r[1..] == AddToGroup(groups[1..], name, p);
    }
  }

  /** A step appends the post to the group of its name and touches no other group. */
  lemma {:induction false} AddToGroupMembers(groups: Groups, name: string, p: Post)
    requires NoDuplicates(Keys(groups))
    ensures forall i :: 0 <= i < |groups| ==>
      AddToGroup(groups, name, p)[i] == (groups[i].0, if groups[i].0 == name then groups[i].1 + [p] else groups[i].1)
    ensures name !in Keys(groups) ==> AddToGroup(groups, name, p)[|groups|] == (name, [p])
  {
    KeysIndex(groups);
    if groups != [] && groups[0].0 != name {
      KeysIndex(groups[1..]);
      AddToGroupMembers(groups[1..], name, p);
      var r := AddToGroup(groups, name, p);
      assert r[1..] == AddToGroup(groups[1..], name, p);
    }
  }

  /** A step adds exactly one post overall. */
  lemma {:induction false} AddToGroupSize(groups: Groups, name: string, p: Post)
    ensures TotalSize(AddToGroup(groups, name, p)) == TotalSize(groups) + 1
  {
    if groups != [] && groups[0].0 != name {
      AddToGroupSize(groups[1..], name, p);
      var r := AddToGroup(groups, name, p);
      assert r[1..] == AddToGroup(groups[1..], name, p);
    }
  }

  lemma {:induction false} KeysIndex(groups: Groups)
    ensures |Keys(groups)| == |groups|
    ensures forall i :: 0 <= i < |groups| ==> Keys(groups)[i] == groups[i].0
  {
    if groups != [] {
      KeysIndex(groups[1..]);
    }
  }

  /** A name that no post carries has no members. */
  lemma NoMembers(posts: seq<Post>, name: string)
    requires name !in Names(posts)
    ensures Members(posts, name) == []
  {
    forall j | 0 <= j < |posts|
      ensures GroupName(posts[j]) != name
    {
      assert Names(posts)[j] in Names(posts);
    }
    FilterNone(posts, (q: Post) => GroupName(q) == name);
  }

  /** The loop over the posts, as the state after each prefix. */
  function GroupLoop(posts: seq<Post>): (r: Groups)
    ensures Keys(r) == Distinct(Names(posts))
    ensures forall i :: 0 <= i < |r| ==> r[i].1 == Members(posts, r[i].0)
    ensures TotalSize(r) == |posts|
    decreases |posts|
  {
    if posts == [] then []
    else
      var n := |posts| - 1;
      var init, p := posts[..n], posts[n];
      assert posts == init + [p];
      var before := GroupLoop(init);
      LoopStep(init, p, before);
      AddToGroup(before, GroupName(p), p)
  }

  lemma LoopStep(init: seq<Post>, p: Post, before: Groups)
    requires Keys(before) == Distinct(Names(init))
    requires forall i :: 0 <= i < |before| ==> before[i].1 == Members(init, before[i].0)
    requires TotalSize(before) == |init|
    ensures Keys(AddToGroup(before, GroupName(p), p)) == Distinct(Names(init + [p]))
    ensures forall i :: 0 <= i < |AddToGroup(before, GroupName(p), p)| ==>
      AddToGroup(before, GroupName(p), p)[i].1 == Members(init + [p], AddToGroup(before, GroupName(p), p)[i].0)
    ensures TotalSize(AddToGroup(before, GroupName(p), p)) == |init| + 1
  {
    StepKeys(init, p, before);
    AddToGroupSize(before, GroupName(p), p);
    forall i | 0 <= i < |AddToGroup(before, GroupName(p), p)|
      ensures AddToGroup(before, GroupName(p), p)[i].1 == Members(init + [p], AddToGroup(before, GroupName(p), p)[i].0)
    {
      StepGroup(init, p, before, i);
    }
  }

  /** The keys after a step are the distinct names of the longer prefix. */
  lemma StepKeys(init: seq<Post>, p: Post, before: Groups)
    requires Keys(before) == Distinct(Names(init))
    ensures Keys(AddToGroup(before, GroupName(p), p)) == Distinct(Names(init + [p]))
  {
    assert Names(init + [p]) == Names(init) + [GroupName(p)];
    DistinctSnoc(Names(init), GroupName(p));
    AddToGroupKeys(before, GroupName(p), p);
  }

  /** Appending one post to the sequence appends it to its own group only. */
  lemma MembersSnoc(init: seq<Post>, p: Post, name: string)
    ensures Members(init + [p], name) == Members(init, name) + (if GroupName(p) == name then [p] else [])
  {
    FilterSnoc(init, p, (q: Post) => GroupName(q) == name);
  }

  /** After a step, the group at index `i` holds that name's posts of the longer prefix. */
  lemma StepGroup(init: seq<Post>, p: Post, before: Groups, i: nat)
    requires Keys(before) == Distinct(Names(init))
    requires forall j :: 0 <= j < |before| ==> before[j].1 == Members(init, before[j].0)
    requires i < |AddToGroup(before, GroupName(p), p)|
    ensures AddToGroup(before, GroupName(p), p)[i].1 == Members(init + [p], AddToGroup(before, GroupName(p), p)[i].0)
  {
    var name := GroupName(p);
    var r := AddToGroup(before, name, p);
    AddToGroupMembers(before, name, p);
    MembersSnoc(init, p, r[i].0);
    if i == |before| {
      NoMembers(init, name);
    }
  }

  /** `get_posts_by_country(user)`: the author's posts grouped by the name of
      their country; no posts give no groups. The groups come in order of
      first appearance, each holds exactly its name's posts in their original
      order, and every post is in exactly one group. */
  function PostsByCountry(user: nat, posts: seq<Post>): (r: Groups)
    ensures Keys(r) == Distinct(Names(OwnPosts(user, posts)))
    ensures NoDuplicates(Keys(r))
    ensures forall i :: 0 <= i < |r| ==> r[i].1 == Members(OwnPosts(user, posts), r[i].0)
    ensures TotalSize(r) == |OwnPosts(user, posts)|
  {
    var own := OwnPosts(user, posts);
    if own == [] then [] else GroupLoop(own)
  }

  /** A group's members are exactly the author's posts with that name, and no group is empty. */
  lemma GroupMembership(user: nat, posts: seq<Post>, i: nat)
    requires i < |PostsByCountry(user, posts)|
    ensures PostsByCountry(user, posts)[i].1 != []
    ensures forall p :: p in PostsByCountry(user, posts)[i].1 <==>
      p in posts && p.author == user && GroupName(p) == PostsByCountry(user, posts)[i].0
  {
    var own := OwnPosts(user, posts);
    var r := PostsByCountry(user, posts);
    var name := r[i].0;
    KeysIndex(r);
    assert Keys(r)[i] == name;
    SomeMember(own, name);
  }

  /** A name carried by some post has that post among its members. */
  lemma SomeMember(posts: seq<Post>, name: string)
    requires name in Names(posts)
    ensures Members(posts, name) != []
  {
    var j :| 0 <= j < |posts| && Names(posts)[j] == name;
    assert posts[j] in Members(posts, name);
  }
}

=== FILE: user_services.dfy ===
/** The user services: sign-up (`UserCreatService.create`), login
    (`UserLoginService.execute`), the subscription relations
    (`SubscriptionService`) and the per-user post and country counts
    (`ListUserService`). Password hashing, password checking and token issuing
    belong to Django and SimpleJWT and are parameters here. */
module UserServices {

  import opened Wrappers
  import opened JsonValues
  import opened Failures
  import opened BaseService
  import opened Models
  import opened Seqs
  import opened Posts

  /** The user table: each row maps attribute names to values. */
  type Users = Store<map<string, Json>>

  // ------------------------------------------------------------ sign-up

  /** `UserCreatService.create`: the row is first saved with the raw password
      by `BaseService.create`, then `set_password` replaces it by its hash. */
  function SignUp(users: Users, email: Json, username: Json, firstName: Json, lastName: Json,
                  password: string, hash: string -> string): (r: Created<map<string, Json>>)
    requires Valid(users)
    ensures Valid(r.store)
    ensures r.id !in users.rows && r.store.rows.Keys == users.rows.Keys + {r.id}
    ensures forall id :: id in users.rows ==> r.store.rows[id] == users.rows[id]
    ensures r.row == r.store.rows[r.id]
    ensures r.row == map["email" := email, "username" := username, "first_name" := firstName,
                         "last_name" := lastName, "password" := JString(hash(password))]
  {
    var fields := map["email" := email, "username" := username, "first_name" := firstName,
                      "last_name" := lastName, "password" := JString(password)];
    var created := Create(users, fields);
    var saved := Update(created.store, created.id, map["password" := JString(hash(password))]);
    Created(saved.value, created.id, saved.value.rows[created.id])
  }

  /** The raw password never stays in the table unless it is its own hash. */
  lemma SignUpStoresHash(users: Users, email: Json, username: Json, firstName: Json, lastName: Json,
                         password: string, hash: string -> string)
    requires Valid(users)
    requires hash(password) != password
    ensures SignUp(users, email, username, firstName, lastName, password, hash).row["password"] != JString(password)
  {
  }

  // ------------------------------------------------------------ login

  const InvalidPassword: string := "Invalid password."

  /** `_create_response`. */
  datatype LoginResponse = LoginResponse(accessToken: string, refreshToken: string, userId: nat)

  /** `UserLoginService.execute(email, password)`: the user with this email or
      404, the password check, then a token pair for that user. */
  function Login(users: Users, email: string, password: string,
                 checkPassword: (map<string, Json>, string) -> bool,
                 tokensFor: nat -> (string, string)): (r: Result<LoginResponse, Failure>)
    ensures r.Success? ==>
      && r.value.userId in users.rows
      && DictGet(users.rows[r.value.userId], "email") == JString(email)
      && checkPassword(users.rows[r.value.userId], password)
      && (r.value.accessToken, r.value.refreshToken) == tokensFor(r.value.userId)
    ensures r == Failure(NotFound) <==> forall id :: id in users.rows ==> DictGet(users.rows[id], "email") != JString(email)
    ensures r.Failure? ==> r.error in {NotFound, MultipleObjectsReturned, ValidationError(FieldMessage("password", InvalidPassword))}
  {
    var id :- GetOr404(users, map["email" := JString(email)]);
    if !checkPassword(users.rows[id], password) then
      Failure(ValidationError(FieldMessage("password", InvalidPassword)))
    else
      var tokens := tokensFor(id);
      Success(LoginResponse(tokens.0, tokens.1, id))
  }

  /** With unique emails, a known email and the right password always log in,
      and as that user; the wrong password is reported under `password`. */
  lemma LoginDecides(users: Users, id: nat, password: string,
                     checkPassword: (map<string, Json>, string) -> bool,
                     tokensFor: nat -> (string, string))
    requires id in users.rows && "email" in users.rows[id] && users.rows[id]["email"].JString?
    requires forall other :: other in users.rows && other != id ==> DictGet(users.rows[other], "email") != users.rows[id]["email"]
    ensures var r := Login(users, users.rows[id]["email"].s, password, checkPassword, tokensFor);
      && (r.Success? <==> checkPassword(users.rows[id], password))
      && (r.Success? ==> r.value.userId == id)
      && (r.Failure? ==> r.error == ValidationError(FieldMessage("password", InvalidPassword)))
  {
    var email := users.rows[id]["email"];
    assert Matches(users.rows[id], map["email" := email]);
    forall other | other in users.rows && Matches(users.rows[other], map["email" := email])
      ensures other == id
    {
      assert DictGet(users.rows[other], "email") == email;
    }
  }

  // ------------------------------------------------------------ subscriptions

  /** `subscribe_to_user`: the target must exist (404 otherwise). */
  function SubscribeToUser<R>(subscriptions: Subscriptions, users: Store<R>, target: nat): (r: Result<Subscriptions, Failure>)
    ensures r.Failure? <==> target !in users.rows
    ensures r.Failure? ==> r.error == NotFound
    ensures r.Success? ==> r.value == subscriptions.(users := subscriptions.users + {target})
  {
    if target !in users.rows then Failure(NotFound)
    else Success(subscriptions.(users := subscriptions.users + {target}))
  }

  /** `unsubscribe_from_user`: the target must exist; removing a user that
      was not followed changes nothing. */
  function UnsubscribeFromUser<R>(subscriptions: Subscriptions, users: Store<R>, target: nat): (r: Result<Subscriptions, Failure>)
    ensures r.Failure? <==> target !in users.rows
    ensures r.Failure? ==> r.error == NotFound
    ensures r.Success? ==> r.value == subscriptions.(users := subscriptions.users - {target})
  {
    if target !in users.rows then Failure(NotFound)
    else Success(subscriptions.(users := subscriptions.users - {target}))
  }

  function SubscribeToCountry(subscriptions: Subscriptions, country: nat): (r: Subscriptions)
    ensures r.countries == subscriptions.countries + {country}
    ensures r.users == subscriptions.users && r.tags == subscriptions.tags
  {
    subscriptions.(countries := subscriptions.countries + {country})
  }

  function UnsubscribeFromCountry(subscriptions: Subscriptions, country: nat): (r: Subscriptions)
    ensures r.countries == subscriptions.countries - {country}
    ensures r.users == subscriptions.users && r.tags == subscriptions.tags
  {
    subscriptions.(countries := subscriptions.countries - {country})
  }

  function SubscribeToTag(subscriptions: Subscriptions, tag: nat): (r: Subscriptions)
    ensures r.tags == subscriptions.tags + {tag}
    ensures r.users == subscriptions.users && r.countries == subscriptions.countries
  {
    subscriptions.(tags := subscriptions.tags + {tag})
  }

  function UnsubscribeFromTag(subscriptions: Subscriptions, tag: nat): (r: Subscriptions)
    ensures r.tags == subscriptions.tags - {tag}
    ensures r.users == subscriptions.users && r.countries == subscriptions.countries
  {
    subscriptions.(tags := subscriptions.tags - {tag})
  }

  /** Subscribing twice is subscribing once; unsubscribing undoes a
      subscription that was not there before; each relation is independent. */
  lemma SubscriptionLaws<R>(s: Subscriptions, users: Store<R>, target: nat, country: nat, tag: nat)
    requires target in users.rows
    ensures SubscribeToUser(SubscribeToUser(s, users, target).value, users, target) == SubscribeToUser(s, users, target)
    ensures target !in s.users ==> UnsubscribeFromUser(SubscribeToUser(s, users, target).value, users, target) == Success(s)
    ensures SubscribeToCountry(SubscribeToCountry(s, country), country) == SubscribeToCountry(s, country)
    ensures country !in s.countries ==> UnsubscribeFromCountry(SubscribeToCountry(s, country), country) == s
    ensures SubscribeToTag(SubscribeToTag(s, tag), tag) == SubscribeToTag(s, tag)
    ensures tag !in s.tags ==> UnsubscribeFromTag(SubscribeToTag(s, tag), tag) == s
    ensures UnsubscribeFromCountry(s, country) == s <==> country !in s.countries
  {
    if target !in s.users {
      assert s.users + {target} - {target} == s.users;
    }
    if country !in s.countries {
      assert s.countries + {country} - {country} == s.countries;
    }
    if tag !in s.tags {
      assert s.tags + {tag} - {tag} == s.tags;
    }
    if UnsubscribeFromCountry(s, country) == s {
      assert country !in s.countries - {country};
    }
  }

  // ------------------------------------------------------------ counts

  /** One row of `get_users_with_post_and_country_count`. */
  datatype UserCounts = UserCounts(user: nat, postCount: nat, countryCount: nat)

  /** The country keys of the posts that have a country, one per post. */
  function CountryKeys(posts: seq<Post>): (r: seq<nat>)
    ensures |r| <= |posts|
    ensures forall c :: c in r <==> exists p :: p in posts && p.country.Some? && p.country.value.id == c
    ensures r == [] <==> forall p :: p in posts ==> p.country.None?
  {
    if posts == [] then []
    else
      var rest := CountryKeys(posts[1..]);
      assert forall p :: p in posts <==> p == posts[0] || p in posts[1..];
      if posts[0].country.Some? then [posts[0].country.value.id] + rest else rest
  }

  /** A user's number of posts and number of distinct countries among them;
      SQL's distinct count skips posts without a country. */
  function CountsFor(user: nat, posts: seq<Post>): (r: UserCounts)
    ensures r.user == user
    ensures r.postCount == |OwnPosts(user, posts)|
    ensures r.countryCount <= r.postCount
    ensures r.countryCount == 0 <==> forall p :: p in posts && p.author == user ==> p.country.None?
  {
    var own := OwnPosts(user, posts);
    var countries := Distinct(CountryKeys(own));
    assert countries == [] <==> CountryKeys(own) == [] by {
      assert countries != [] ==> countries[0] in CountryKeys(own);
      assert CountryKeys(own) != [] ==> CountryKeys(own)[0] in countries;
    }
    UserCounts(user, |own|, |countries|)
  }

  /** The distinct count is the number of different countries the user wrote about. */
  lemma CountryCountIsDistinctCountries(user: nat, posts: seq<Post>)
    ensures CountsFor(user, posts).countryCount
      == |set p | p in posts && p.author == user && p.country.Some? :: p.country.value.id|
  {
    var own := OwnPosts(user, posts);
    var keys := Distinct(CountryKeys(own));
    var ids := set p | p in posts && p.author == user && p.country.Some? :: p.country.value.id;
    assert forall c :: c in keys <==> c in ids;
    DistinctCardinality(keys, ids);
  }

  /** A duplicate-free sequence has as many elements as the set it enumerates. */
  lemma {:induction false} DistinctCardinality(s: seq<nat>, elements: set<nat>)
    requires NoDuplicates(s)
    requires forall c :: c in s <==> c in elements
    ensures |s| == |elements|
  {
    if s != [] {
      var rest := elements - {s[0]};
      assert forall c :: c in s[1..] <==> c in rest by {
        forall c
          ensures c in s[1..] <==> c in rest
        {
          if c in s[1..] {
            var j :| 0 <= j < |s[1..]| && s[1..][j] == c;
            assert s[j + 1] == c && s[0] != s[j + 1];
          }
          if c in rest {
            var j :| 0 <= j < |s| && s[j] == c;
            assert j != 0;
            assert s[1..][j - 1] == c;
          }
        }
      }
      DistinctCardinality(s[1..], rest);
    }
  }

  /** `get_users_with_post_and_country_count()`: every user annotated, in table order. */
  function UsersWithCounts(users: seq<nat>, posts: seq<Post>): (r: seq<UserCounts>)
    ensures |r| == |users|
    ensures forall i :: 0 <= i < |r| ==> r[i].user == users[i] && r[i].countryCount <= r[i].postCount
    ensures forall i :: 0 <= i < |r| ==> r[i] == CountsFor(users[i], posts)
  {
    seq(|users|, i requires 0 <= i < |users| => CountsFor(users[i], posts))
  }
}

=== FILE: wrappers.dfy ===
/** Failure-compatible wrappers used by every module of the model: an optional
    value, and the outcome of an operation that either returns or raises. */
module Wrappers {

  datatype Option<+T> = None | Some(value: T)

  /** `Failure` stands for a Python exception leaving the operation. */
  datatype Result<+T, +E> = Success(value: T) | Failure(error: E) {

    predicate IsFailure() {
      Failure?
    }

    function PropagateFailure<U>(): Result<U, E>
      requires Failure?
    {
      Failure(error)
    }

    function Extract(): T
      requires Success?
    {
      value
    }
  }
}
